=== FILE: README.md ===
# Weekly engineering report core, in Dafny

This project models the pure logic of the weekly engineering report generator
and proves properties of it. Five pieces are covered:

- **GitHub activity records** (`data/github_models.py`): pull requests, commits
  and issues, one repository's activity and a multi-repository report. The
  derived values are the merged test, the short hash and short message, the
  per-repository counts, the sorted contributor list and the cross-repository
  sums.
- **The collector** (`core/github_collector.py`). The hosting API is replaced
  by the raw records it hands back. For each repository and window there are
  the open and the closed pull-request buckets, the window's commits and the
  open issues. A fetch function returns those records or a failure cause.
  What remains is the bucket scan with its early `break`, the three-way
  pull-request state, the `"unknown"` author fallback, the exclusion of merge
  commits and of pull requests listed as issues, and the fail-fast loop over
  the configured repositories.
- **The stats formatter** (`utils/github_stats_formatter.py`): the one-line
  weekly summary and the multi-line per-repository breakdown.
- **The project-report records** (`data/models.py`): the project status with
  its emoji and display name, the project-name validator, the weekly-report
  validators, and the list, on-track and total accessors.
- **The settings** (`config/settings.py`): the `owner/repo` validator and the
  comma-split-and-strip repository and recipient lists.

Timestamps are integers (seconds), and report dates are integer day numbers.
URLs are plain strings. Python's `str.strip`, `str.split`, `str.join`,
`str.replace`, `str.title` and decimal rendering are modelled in module `Text`.

Modules:

| file | module | models |
|---|---|---|
| `wrappers.dfy` | `Wrappers` | `Option` and `Result` |
| `seqs.dfy` | `Seqs` | list comprehensions: map, filter, count |
| `text.dfy` | `Text` | the string primitives listed above |
| `sorted_strings.dfy` | `SortedStrings` | `sorted(set(...))` over strings |
| `github_models.dfy` | `GithubModels` | `data/github_models.py` |
| `github_collector.dfy` | `GithubCollector` | `core/github_collector.py` |
| `stats_formatter.dfy` | `StatsFormatter` | `utils/github_stats_formatter.py` |
| `report_models.dfy` | `ReportModels` | `data/models.py` |
| `config.dfy` | `Config` | `config/settings.py` |

Three behaviours are modelled as the code has them:

- **The pull-request scan stops at the first pull request created before
  `since`.** The API lists each bucket most recently *updated* first, so an
  in-window pull request that comes after an older-created one is never
  collected. A bucket's result is therefore the in-window pull requests of the
  longest prefix created at or after `since`. `ScanCanDropInWindowPull` shows a
  pull request that is lost this way. `ScanOfCreationOrderedBucket` shows that
  nothing is lost when the bucket happens to be ordered by creation time.
- **The weekly summary puts a comma before "across".** The docstring example
  reads `"15 PRs merged, 47 commits across 3 repos"`, but the code joins every
  clause with `", "`. With nothing merged, no commits and several repositories,
  the summary is `"Week's Coding: across N repos"`, not the no-activity text.
- **The detailed breakdown always uses the plural** ("1 PRs merged", "1
  commits"). Only the contributor line has a singular form.

In `data/models.py`, `WeeklyReport.projects` carries `min_items=1` and also a
validator that refuses an empty list. The length constraint runs first, so an
empty list is refused as too short and the validator's own message never
appears. `ReportErrors` follows that order. `ValidateProjects` models the
validator on its own.

## Model

| member | source | states |
|---|---|---|
| `GithubModels.MergedPrsSignals` | data/github_models.py:40-43 | either signal alone counts a pull request as merged: the merged count is at least the number in the merged state and at least the number with a merge time, and at most the two together |
| `GithubModels.ShortSha` | data/github_models.py:58-61 | the short hash is a prefix of the hash, seven characters long or the whole hash when it is shorter |
| `GithubModels.ShortMessage` | data/github_models.py:63-66 | the short message is a prefix of the message with no line break, ends where the first line break starts, and is the whole message when there is none |
| `GithubModels.MergedPrs` | data/github_models.py:114-117 | a repository's merged count never exceeds its pull-request count |
| `GithubModels.UniqueContributors` | data/github_models.py:129-135 | the contributors are strictly sorted (so duplicate-free) and are exactly the pull-request authors together with the commit authors |
| `GithubModels.UniqueContributorsCanonical` | data/github_models.py:129-135 | any strictly sorted list of exactly the repository's authors equals the contributor list, so it is Python's `sorted(set(...))` |
| `GithubModels.ContributorExample` | data/github_models.py:129-135 | pull-request authors x, y and commit authors y, z give ["x", "y", "z"] |
| `GithubModels.QuietRepository` | data/github_models.py:109-135 | a repository with no records has every count zero and no contributors |
| `GithubModels.SumOverConcat` | data/github_models.py:159-172 | a cross-repository sum over two lists of repositories is the sum of the two sums |
| `GithubModels.ReportTotalsAppend` | data/github_models.py:154-172 | adding one repository adds one to the repository total and exactly its own counts to the other totals |
| `GithubModels.MergedAcrossAtMostTotal` | data/github_models.py:159-162 | merged pull requests across repositories never exceed all pull requests across repositories |
| `GithubModels.EmptyReportTotals` | data/github_models.py:154-172 | a report with no repositories has every total zero |
| `GithubCollector.NewCollector` | core/github_collector.py:50-51 | an absent or empty token or repository list falls back to the settings, and a given non-empty one is kept; the collector always has at least one repository |
| `GithubCollector.ClassifyPrState` | core/github_collector.py:172-178 | merged exactly when the merged flag is set; closed exactly when not merged and the state is "closed"; open otherwise |
| `GithubCollector.NormalizePull` | core/github_collector.py:172-192 | the recorded state is merged exactly when the API's merged flag is set, closed exactly when not merged and the API state is "closed", and open otherwise. It counts as merged exactly when the flag is set or it has a merge time. A missing user becomes "unknown". Number, title, URL, creation, merge and close times and line counts are copied |
| `GithubCollector.RecentPrefixLength` | core/github_collector.py:164-167 | the scan's stopping point: every pull request before it was created at or after `since`, and the one at it was created earlier |
| `GithubCollector.ScanBucketLoop` | core/github_collector.py:164-192 | the loop over one bucket, with its `break` and `continue`, yields the in-window pull requests of the longest prefix created at or after `since`, in bucket order |
| `GithubCollector.CollectPullRequests` | core/github_collector.py:153-194 | the open bucket's scan followed by the closed bucket's scan |
| `GithubCollector.CollectedPullsInWindow` | core/github_collector.py:166-170 | every collected pull request was created within the window, both bounds included |
| `GithubCollector.ScanStopsAtFirstOld` | core/github_collector.py:166-167 | nothing at or after the first pull request created before `since` affects the bucket's result |
| `GithubCollector.ScanOfCreationOrderedBucket` | core/github_collector.py:163-170 | for a bucket ordered newest-created first, the early stop loses nothing: the result is every in-window pull request of the bucket |
| `GithubCollector.ScanCanDropInWindowPull` | core/github_collector.py:164-167 | when an older-created pull request comes first, an in-window one after it is not collected |
| `GithubCollector.NormalizeCommit` | core/github_collector.py:210-219 | missing stats give zero added and deleted lines, present stats are copied. The hash, message, author name and email, author date and URL are copied |
| `GithubCollector.CollectCommits` | core/github_collector.py:196-221 | the loop over the window's commits yields the normalized commits with at most one parent, in API order |
| `GithubCollector.CommitsAreNonMerge` | core/github_collector.py:205-208 | every collected commit is the normalized form of an API commit with at most one parent |
| `GithubCollector.NonMergeCommitsKept` | core/github_collector.py:205-219 | every API commit with at most one parent is collected, and the collected and merge commits add up to all of them |
| `GithubCollector.NormalizeIssue` | core/github_collector.py:232-242 | a recorded issue is open, and a missing user becomes "unknown". Number, title, creation and close times, URL, labels and assignees are copied |
| `GithubCollector.CollectOpenIssues` | core/github_collector.py:223-244 | the loop over the open issues skips those marked as pull requests and records every other one as open |
| `GithubCollector.IssuesArePlainAndOpen` | core/github_collector.py:227-236 | every collected issue is open and comes from an API issue without the pull-request marker, and every such issue is collected |
| `GithubCollector.CollectRepoActivity` | core/github_collector.py:140-151 | one repository's activity holds its scanned pull requests, non-merge commits and plain open issues |
| `GithubCollector.CollectActivity` | core/github_collector.py:74-113 | succeeds exactly when every repository's fetch succeeds. Success gives one activity per configured repository, in configured order, stamped with the window used. Otherwise the error names the first repository whose fetch failed, with its cause |
| `GithubCollector.ErrorMessage` | core/github_collector.py:97-107 | the raised error's text is "Failed to collect data from ", then the repository, then ": ", then the cause |
| `GithubCollector.ErrorMessageIdentifies` | core/github_collector.py:97-107 | when repository names hold no colon, two error texts are equal exactly when they name the same repository and cause |
| `StatsFormatter.RenderClause` | utils/github_stats_formatter.py:36-43 | a clause's text is non-empty and has no comma, line break or surrounding whitespace. The repository clause, and only it, starts with "across "; the other two start with their count |
| `StatsFormatter.SummaryClauses` | utils/github_stats_formatter.py:34-43 | the merged clause fires exactly when the count is positive, the commit clause likewise, and the repository clause exactly when there are more than one; each kind appears once at most, in the order merged, commits, repositories |
| `StatsFormatter.ParseRenderClause` | utils/github_stats_formatter.py:36-43 | reading a clause's text back gives the clause, so the singular and plural forms and the counts are recoverable |
| `StatsFormatter.ParseFormatCounts` | utils/github_stats_formatter.py:34-48 | the weekly summary reads back as the merged and commit totals and, when more than one, the repository total; distinct totals give distinct summaries |
| `StatsFormatter.FormatCounts` | utils/github_stats_formatter.py:34-48 | the summary starts with the prefix "Week's Coding: " |
| `StatsFormatter.FormatWeeklySummary` | utils/github_stats_formatter.py:16-51 | a report's summary starts with the prefix "Week's Coding: " |
| `StatsFormatter.NoActivityExactly` | utils/github_stats_formatter.py:45-46 | the no-activity text appears exactly when nothing merged, there are no commits and there is at most one repository |
| `StatsFormatter.WeeklySummaryReadsBack` | utils/github_stats_formatter.py:26-48 | a report's summary shows the sum of the per-repository merged counts, the commit total and the repository total |
| `StatsFormatter.SingularExample` | utils/github_stats_formatter.py:36-48 | one merged pull request, one commit and one repository give "Week's Coding: 1 PR merged, 1 commit" |
| `StatsFormatter.ReposOnlyExample` | utils/github_stats_formatter.py:42-48 | nothing merged, no commits and three repositories give "Week's Coding: across 3 repos" |
| `StatsFormatter.FullExample` | utils/github_stats_formatter.py:36-48 | 15 merged, 47 commits and 3 repositories give "Week's Coding: 15 PRs merged, 47 commits, across 3 repos", with a comma before "across" |
| `StatsFormatter.RepoStats` | utils/github_stats_formatter.py:67-76 | a repository's statistics are empty exactly when it has no activity; they are merged, then commits, then open issues, each present only when positive and always in the plural |
| `StatsFormatter.AllContributors` | utils/github_stats_formatter.py:82-84 | a person is a contributor of the report exactly when they contribute to some repository |
| `StatsFormatter.DetailedLines` | utils/github_stats_formatter.py:64-87 | the header comes first, then one line per active repository, then a contributor line when anyone contributed |
| `StatsFormatter.DetailedLinesContents` | utils/github_stats_formatter.py:66-87 | the lines after the header are exactly those of the active repositories, in report order: the line of an active repository sits right after the lines of the active repositories before it. The contributor line, when present, is last and counts the union of contributors |
| `StatsFormatter.ContributorLineForms` | utils/github_stats_formatter.py:86-87 | the contributor line is singular for one person and plural otherwise |
| `StatsFormatter.FormatDetailedSummary` | utils/github_stats_formatter.py:64-89 | the breakdown starts with the header |
| `StatsFormatter.DetailedLinesRoundTrip` | utils/github_stats_formatter.py:89 | when no repository name holds a line break, splitting the breakdown at line breaks gives its lines back |
| `StatsFormatter.QuietReportHeaderOnly` | utils/github_stats_formatter.py:64-89 | a report with no activity and no contributors shows only the header |
| `StatsFormatter.ContributorUnionAtMostSum` | utils/github_stats_formatter.py:81-87 | the contributor count is at most the sum of the per-repository contributor counts |
| `StatsFormatter.SharedContributorCountedOnce` | utils/github_stats_formatter.py:81-87 | one person contributing to two repositories is counted once, not twice |
| `ReportModels.ParseStatus` | data/models.py:12-17 | a status parsed from a value has that value |
| `ReportModels.ParseStatusValue` | data/models.py:12-17 | every status's value parses back to the status, so the values are distinct |
| `ReportModels.Emoji` | data/models.py:19-26 | every status has an emoji: the table lookup never misses |
| `ReportModels.EmojiInjective` | data/models.py:19-26 | distinct statuses show distinct emoji |
| `ReportModels.DisplayName` | data/models.py:28-30 | the display name is as long as the value |
| `ReportModels.DisplayNameOnTrack` | data/models.py:28-30 | on_track displays as "On Track" |
| `ReportModels.DisplayNameSlightDelay` | data/models.py:28-30 | slight_delay displays as "Slight Delay" |
| `ReportModels.DisplayNameAhead` | data/models.py:28-30 | ahead displays as "Ahead" |
| `ReportModels.DisplayNameAtRisk` | data/models.py:28-30 | at_risk displays as "At Risk" |
| `ReportModels.DisplayNameReadsBack` | data/models.py:28-30 | lower-casing the display name and turning spaces into underscores gives the value back |
| `ReportModels.ValidateName` | data/models.py:36-50 | a name is accepted exactly when it has a non-whitespace character, and the result is the stripped, non-empty name; an empty name fails the length constraint and a blank one fails the validator |
| `ReportModels.ValidateNameIdempotent` | data/models.py:44-50 | a validated name passes validation again unchanged |
| `ReportModels.NewProjectUpdate` | data/models.py:33-50 | a project update is built exactly when its name validates, and it holds the stripped name |
| `ReportModels.ValidateWeekEnd` | data/models.py:73-79 | the end is accepted exactly when it does not precede the start, or when there is no valid start to compare with |
| `ReportModels.SameDayWeekAccepted` | data/models.py:73-79 | a week ending on its first day is accepted, and one ending the day before is refused |
| `ReportModels.ValidateProjects` | data/models.py:81-87 | the project list is accepted exactly when it is non-empty, and returned unchanged |
| `ReportModels.ReportErrors` | data/models.py:56-87 | a candidate report has no field error exactly when its week is ordered, the lead name is non-empty, there is a project and the three counters are non-negative |
| `ReportModels.ValidateWeeklyReport` | data/models.py:53-87 | a report is built exactly when it meets every constraint, unchanged; otherwise at least one error is reported |
| `ReportModels.ProjectListRoundTrip` | data/models.py:89-91 | the project list string splits at commas and strips back into the validated project names, in order, when none has a comma |
| `ReportModels.GetOnTrackCount` | data/models.py:93-98 | the on-track count never exceeds the total count |
| `ReportModels.OnTrackPlusBehindIsTotal` | data/models.py:93-102 | the projects on track or ahead and those delayed or at risk add up to the total |
| `ReportModels.ValidatedReportCounts` | data/models.py:60 | a validated report has at least one project to count |
| `ReportModels.AllOnTrack` | data/models.py:93-98 | when every project is on track or ahead, the on-track count is the total |
| `Config.SplitAndStrip` | config/settings.py:43 | there is one more piece than there are commas, and each piece is the stripped segment at its position |
| `Config.FirstWithoutSlash` | config/settings.py:44-46 | finds the first segment without a slash, every earlier one having one |
| `Config.ParseRepos` | config/settings.py:39-47 | the repository list is accepted exactly when every stripped segment has a slash, and returned unchanged; otherwise the error names the first segment without one |
| `Config.ValidateSettings` | config/settings.py:23-47 | the settings are accepted exactly when the repository list is, unchanged |
| `Config.GetReposList` | config/settings.py:57-59 | one repository per comma plus one, so the list is never empty |
| `Config.GetRecipientsList` | config/settings.py:61-63 | one recipient per comma plus one, so the list is never empty |
| `Config.ValidatedReposHaveSlash` | config/settings.py:39-59 | once the settings are validated, every listed repository has an owner and a name |
| `Config.SplitAndStripJoin` | config/settings.py:43 | splitting and stripping undoes a comma join of stripped, comma-free pieces |
| `Config.ReposListRoundTrip` | config/settings.py:57-59 | a repository list written as "a/b, c/d" reads back as written |
| `Config.RecipientsListRoundTrip` | config/settings.py:61-63 | a recipient list written as "a@x,b@y" reads back as written |
| `Config.TrailingCommaRejected` | config/settings.py:43-46 | a trailing comma leaves an empty segment, which has no slash, so the list is refused |

## Left out

- The hosting client, pagination and the network are left out. A fetch is a function parameter that returns a repository's raw records or a failure cause. That cause stands for every exception text, whether from the API error's data or from any other exception.
- Repository lookup and logging are left out. `collect_activity` logs each repository it processes, and these lines have no effect on the result.
- The clock is a parameter. `CollectActivity` takes `now` and uses `now - WeekSeconds` and `now` as the default window. The source reads the clock twice, once for the default `since` and again for the default `until`, so its `until` can fall slightly more than seven days after `since`. The model treats the two reads as one instant.
- Timezone handling is not modelled. All timestamps are comparable integers, so comparing naive and aware datetimes never fails.
- A commit whose author record is missing is not modelled. The raw commit always carries an author name, date and email. In the code, a missing author raises inside the fetch, and the model treats that as the fetch failing.
- `collected_at` is not modelled, because it is a clock reading. Pydantic's `HttpUrl` checks are not modelled either: URLs are plain strings.
- The settings' `report_output_dir` and `create_output_dir` are left out, since they create a directory. Loading the environment and the `.env` file is left out as well.
- The email renderers, the summarizer, the email sender, the JSON exporter, the logger, the command-line scripts and `weekly_report.py` are left out. They are I/O, network calls or templates outside this core.
- Pydantic's field-parsing errors and its error-message texts are left out. `FieldError` records only which field failed and which kind of rule it broke.
- `FormatCounts`: its contract says only that the summary starts with the prefix. `ParseFormatCounts` and `NoActivityExactly` fix which clauses appear, their order and their counts. The reader strips whitespace around each comma-separated piece, so it cannot tell the `", "` separator from a bare comma. Only the example lemmas (`SingularExample`, `ReposOnlyExample`, `FullExample`) show the exact separator.
- `FormatWeeklySummary`: its contract says only that it starts with the prefix. `WeeklySummaryReadsBack` states the totals it shows.
- `FormatDetailedSummary`: its contract says only that it starts with the header. `DetailedLinesRoundTrip` and `DetailedLinesContents` state its lines.
- `DisplayName`: its contract states only the length. The exact names are proved per status, and `DisplayNameReadsBack` gives the value back.
- `Emoji`: its contract states only that it is one character and that the lookup never misses. The exact code points are in `EmojiByValue`, and `EmojiInjective` proves that they are distinct.
- `str.title()` is modelled for ASCII letters only. The status values are ASCII, so every display name is exact.

=== FILE: config.dfy ===
/** The settings of `config/settings.py` once loaded: the comma-separated
    repository and recipient lists, the validator of the repository list and
    the accessors that split them. Reading the environment and creating the
    output directory are not modelled. */
module Config {

  import opened Wrappers
  import opened Text

  datatype Settings = Settings(
    githubToken: string,
    githubRepos: string,
    sendgridApiKey: string,
    sendgridFromEmail: string,
    reportRecipientEmails: string,
    openaiApiKey: string,
    openaiModel: string,
    logLevel: string)

  /** `[r.strip() for r in v.split(",")]`. */
  function SplitAndStrip(v: string): (r: seq<string>)
    ensures |r| == CountChar(v, ',') + 1
    ensures forall i :: 0 <= i < |r| ==> r[i] == Strip(Split(v, ',')[i])
  {
    StripAll(Split(v, ','))
  }

  function InvalidRepoMessage(repo: string): string {
    "Invalid repo format: " + repo + ". Expected 'owner/repo'"
  }

  /** The first element of `repos` at or after `from` without a `/`. */
  function FirstWithoutSlash(repos: seq<string>, from: nat): (r: Option<nat>)
    requires from <= |repos|
    ensures r.None? ==> forall i :: from <= i < |repos| ==> '/' in repos[i]
    ensures r.Some? ==> from <= r.value < |repos| && '/' !in repos[r.value]
                        && forall i :: from <= i < r.value ==> '/' in repos[i]
    decreases |repos| - from
  {
    if from == |repos| then None
    else if '/' !in repos[from] then Some(from)
    else FirstWithoutSlash(repos, from + 1)
  }

  /** The `github_repos` validator: rejects the value when a stripped
      comma-separated segment has no `/`, naming the first such segment, and
      otherwise returns the value unchanged. */
  function ParseRepos(v: string): (r: Result<string, string>)
    ensures r.Success? <==> forall i :: 0 <= i < |SplitAndStrip(v)| ==> '/' in SplitAndStrip(v)[i]
    ensures r.Success? ==> r.value == v
    ensures r.Failure? ==>
      exists i :: 0 <= i < |SplitAndStrip(v)|
        && '/' !in SplitAndStrip(v)[i]
        && (forall j :: 0 <= j < i ==> '/' in SplitAndStrip(v)[j])
        && r.error == InvalidRepoMessage(SplitAndStrip(v)[i])
  {
    var repos := SplitAndStrip(v);
    match FirstWithoutSlash(repos, 0)
    case None => Success(v)
    case Some(i) => Failure(InvalidRepoMessage(repos[i]))
  }

  /** The settings pass validation when their repository list does. */
  function ValidateSettings(s: Settings): (r: Result<Settings, string>)
    ensures r.Success? <==> ParseRepos(s.githubRepos).Success?
    ensures r.Success? ==> r.value == s
  {
    match ParseRepos(s.githubRepos)
    case Success(v) => Success(s.(githubRepos := v))
    case Failure(e) => Failure(e)
  }

  function GetReposList(s: Settings): (r: seq<string>)
    ensures |r| == CountChar(s.githubRepos, ',') + 1
  {
    SplitAndStrip(s.githubRepos)
  }

  function GetRecipientsList(s: Settings): (r: seq<string>)
    ensures |r| == CountChar(s.reportRecipientEmails, ',') + 1
  {
    SplitAndStrip(s.reportRecipientEmails)
  }

  /** Once validated, every configured repository names an owner and a
      repository. */
  lemma ValidatedReposHaveSlash(s: Settings)
    requires ValidateSettings(s).Success?
    ensures forall i :: 0 <= i < |GetReposList(s)| ==> '/' in GetReposList(s)[i]
  {
  }

  /** Splitting and stripping undoes joining with `","` when the elements are
      stripped and comma-free. */
  lemma SplitAndStripJoin(xs: seq<string>)
    requires |xs| >= 1
    requires forall i :: 0 <= i < |xs| ==> ',' !in xs[i] && Strip(xs[i]) == xs[i]
    ensures SplitAndStrip(Join(xs, ",")) == xs
  {
    SplitJoin(xs, ',');
  }

  /** The repository list written as `"a/b, c/d"` reads back as written. */
  lemma ReposListRoundTrip(s: Settings, xs: seq<string>)
    requires |xs| >= 1
    requires forall i :: 0 <= i < |xs| ==> ',' !in xs[i] && Strip(xs[i]) == xs[i]
    requires s.githubRepos == Join(xs, ", ")
    ensures GetReposList(s) == xs
  {
    SplitStripCommaSpaceJoin(xs);
  }

  /** The recipient list written as `"a@x,b@y"` reads back as written. */
  lemma RecipientsListRoundTrip(s: Settings, xs: seq<string>)
    requires |xs| >= 1
    requires forall i :: 0 <= i < |xs| ==> ',' !in xs[i] && Strip(xs[i]) == xs[i]
    requires s.reportRecipientEmails == Join(xs, ",")
    ensures GetRecipientsList(s) == xs
  {
    SplitAndStripJoin(xs);
  }

  /** A trailing comma leaves an empty last segment, which has no `/`, so
      the value is rejected. */
  lemma TrailingCommaRejected(v: string)
    ensures ParseRepos(v + ",").Failure?
  {
    var w := v + ",";
    var pieces := Split(w, ',');
    CountCharConcat(v, ",", ',');
    var last := pieces[|pieces| - 1];
    JoinLast(pieces, ",");
    EmptyLastPiece(Join(pieces[..|pieces| - 1], ",") + ",", last);
    assert SplitAndStrip(w)[|pieces| - 1] == Strip(last);
  }
}

=== FILE: github_collector.dfy ===
/** The collector of `core/github_collector.py`. The hosting API is replaced
    by the raw records it would hand back: for one repository and one window,
    the open and the closed pull-request buckets (each in the API's
    most-recently-updated-first order), the commits of the window and the
    currently open issues. A fetch either yields those streams or fails with
    a cause, which stands for every exception the client library can raise. */
module GithubCollector {

  import opened Wrappers
  import opened Seqs
  import opened GithubModels
  import Config

  datatype RawPull = RawPull(
    number: int,
    title: string,
    merged: bool,
    state: string,
    user: Option<string>,
    createdAt: int,
    mergedAt: Option<int>,
    closedAt: Option<int>,
    htmlUrl: string,
    additions: int,
    deletions: int,
    changedFiles: int)

  datatype RawStats = RawStats(additions: int, deletions: int)

  datatype RawCommit = RawCommit(
    sha: string,
    message: string,
    authorName: string,
    authorEmail: string,
    authorDate: int,
    htmlUrl: string,
    parents: seq<string>,
    stats: Option<RawStats>)

  /** `pullRequest` is the marker the API sets on pull requests listed as
      issues. */
  datatype RawIssue = RawIssue(
    number: int,
    title: string,
    user: Option<string>,
    createdAt: int,
    closedAt: Option<int>,
    htmlUrl: string,
    labels: seq<string>,
    assignees: seq<string>,
    pullRequest: bool)

  /** What the API answers for one repository and one window. */
  datatype RawRepo = RawRepo(
    openPulls: seq<RawPull>,
    closedPulls: seq<RawPull>,
    commits: seq<RawCommit>,
    openIssues: seq<RawIssue>)

  /** The remote source: repository name, `since`, `until` to raw streams or
      the cause of the failure. */
  type Fetch = (string, int, int) -> Result<RawRepo, string>

  /** `GitHubCollectorError`, naming the repository whose fetch failed. */
  datatype CollectorError = CollectorError(repo: string, cause: string)

  const ErrorPrefix := "Failed to collect data from "

  /** The text the raised error carries: the fixed prefix, the repository,
      `": "`, then the cause. */
  function ErrorMessage(e: CollectorError): (r: string)
    ensures |r| == |ErrorPrefix| + |e.repo| + 2 + |e.cause|
    ensures r[..|ErrorPrefix|] == ErrorPrefix
    ensures r[|ErrorPrefix|..|ErrorPrefix| + |e.repo|] == e.repo
    ensures r[|ErrorPrefix| + |e.repo|..|ErrorPrefix| + |e.repo| + 2] == ": "
    ensures r[|r| - |e.cause|..] == e.cause
  {
    ErrorPrefix + e.repo + ": " + e.cause
  }

  /** For repository names without a colon, the message identifies both the
      repository and the cause: two errors read the same exactly when they
      are the same error. */
  lemma {:induction false} ErrorMessageIdentifies(e1: CollectorError, e2: CollectorError)
    requires ':' !in e1.repo && ':' !in e2.repo
    ensures ErrorMessage(e1) == ErrorMessage(e2) <==> e1 == e2
  {
    if ErrorMessage(e1) == ErrorMessage(e2) {
      if |e1.repo| < |e2.repo| {
        ColonAfterRepo(e1);
        assert false;
      } else if |e2.repo| < |e1.repo| {
        ColonAfterRepo(e2);
        assert false;
      }
      assert e1.repo == e2.repo;
      assert e1.cause == e2.cause;
    }
  }

  /** The colon right after the repository name. */
  lemma ColonAfterRepo(e: CollectorError)
    ensures |ErrorPrefix| + |e.repo| < |ErrorMessage(e)|
    ensures ErrorMessage(e)[|ErrorPrefix| + |e.repo|] == ':'
  {
  }

  const UnknownAuthor := "unknown"

  /** Length of the default window, in the seconds of the integer clock. */
  const WeekSeconds := 7 * 24 * 60 * 60

  /** A collector: the token and the repositories it was built with. */
  datatype Collector = Collector(accessToken: string, repos: seq<string>)

  /** The constructor: an absent or empty token or repository list falls back
      to the settings. */
  function NewCollector(accessToken: Option<string>, repos: Option<seq<string>>,
                        settings: Config.Settings): (c: Collector)
    ensures |c.repos| >= 1
    ensures repos.Some? && |repos.value| > 0 ==> c.repos == repos.value
    ensures repos.None? || repos.value == [] ==> c.repos == Config.GetReposList(settings)
    ensures accessToken.Some? && accessToken.value != "" ==> c.accessToken == accessToken.value
    ensures accessToken.None? || accessToken.value == "" ==> c.accessToken == settings.githubToken
  {
    var token := if accessToken.Some? && accessToken.value != "" then accessToken.value
                 else settings.githubToken;
    var names := if repos.Some? && |repos.value| > 0 then repos.value
                 else Config.GetReposList(settings);
    Collector(token, names)
  }

  function AuthorOf(user: Option<string>): string {
    user.GetOr(UnknownAuthor)
  }

  /** The API's merged flag wins; otherwise the reported state decides. */
  function ClassifyPrState(merged: bool, state: string): (s: PRState)
    ensures s == PRState.Merged <==> merged
    ensures s == PRState.Closed <==> !merged && state == "closed"
    ensures s == PRState.Open <==> !merged && state != "closed"
  {
    if merged then PRState.Merged
    else if state == "closed" then PRState.Closed
    else PRState.Open
  }

  /** The recorded pull request: the classified state, the author with its
      fallback, and every other field copied from the API's record. */
  function NormalizePull(p: RawPull): (pr: PullRequest)
    ensures IsMerged(pr) <==> p.merged || p.mergedAt.Some?
    ensures pr.state == PRState.Merged <==> p.merged
    ensures pr.state == PRState.Closed <==> !p.merged && p.state == "closed"
    ensures pr.state == PRState.Open <==> !p.merged && p.state != "closed"
    ensures pr.mergedAt == p.mergedAt && pr.closedAt == p.closedAt
    ensures && pr.number == p.number && pr.title == p.title && pr.url == p.htmlUrl
            && pr.additions == p.additions && pr.deletions == p.deletions
            && pr.changedFiles == p.changedFiles
    ensures p.user.None? ==> pr.author == "unknown"
    ensures p.user.Some? ==> pr.author == p.user.value
    ensures pr.createdAt == p.createdAt
  {
    PullRequest(
      p.number, p.title, ClassifyPrState(p.merged, p.state), AuthorOf(p.user),
      p.createdAt, p.mergedAt, p.closedAt, p.htmlUrl,
      p.additions, p.deletions, p.changedFiles)
  }

  predicate InWindow(t: int, since: int, until: int) {
    since <= t <= until
  }

  /** The window test on a raw pull request, as a value for `Filter`. */
  function PullInWindow(since: int, until: int): RawPull -> bool {
    (p: RawPull) => InWindow(p.createdAt, since, until)
  }

  /** Length of the longest prefix of `bucket` whose pull requests were all
      created at or after `since`: where the scan's `break` fires. */
  function RecentPrefixLength(bucket: seq<RawPull>, since: int): (k: nat)
    ensures k <= |bucket|
    ensures forall j :: 0 <= j < k ==> bucket[j].createdAt >= since
    ensures k < |bucket| ==> bucket[k].createdAt < since
  {
    if |bucket| == 0 || bucket[0].createdAt < since then 0
    else 1 + RecentPrefixLength(bucket[1..], since)
  }

  /** The pull requests one bucket contributes: the in-window ones among the
      longest prefix created at or after `since`, in bucket order. */
  function ScanBucket(bucket: seq<RawPull>, since: int, until: int): seq<PullRequest> {
    Map(NormalizePull, Filter(PullInWindow(since, until), bucket[..RecentPrefixLength(bucket, since)]))
  }

  /** The open bucket's contribution, then the closed bucket's. */
  function PullRequestsOf(raw: RawRepo, since: int, until: int): seq<PullRequest> {
    ScanBucket(raw.openPulls, since, until) + ScanBucket(raw.closedPulls, since, until)
  }

  predicate IsMergeCommit(c: RawCommit) {
    |c.parents| > 1
  }

  function NotMergeCommit(c: RawCommit): bool {
    !IsMergeCommit(c)
  }

  /** Missing stats count as no added and no deleted lines; every other
      field is copied from the API's record. */
  function NormalizeCommit(c: RawCommit): (r: Commit)
    ensures c.stats.None? ==> r.additions == 0 && r.deletions == 0
    ensures c.stats.Some? ==> r.additions == c.stats.value.additions && r.deletions == c.stats.value.deletions
    ensures r.sha == c.sha && r.author == c.authorName
    ensures r.message == c.message && r.authorEmail == c.authorEmail && r.date == c.authorDate && r.url == c.htmlUrl
  {
    Commit(
      c.sha, c.message, c.authorName, c.authorEmail, c.authorDate, c.htmlUrl,
      if c.stats.Some? then c.stats.value.additions else 0,
      if c.stats.Some? then c.stats.value.deletions else 0)
  }

  function CommitsOf(raw: seq<RawCommit>): seq<Commit> {
    Map(NormalizeCommit, Filter(NotMergeCommit, raw))
  }

  function IsPlainIssue(i: RawIssue): bool {
    !i.pullRequest
  }

  /** The recorded issue is open, the author falls back to `"unknown"`, and
      every other field is copied from the API's record. */
  function NormalizeIssue(i: RawIssue): (r: Issue)
    ensures IsOpen(r)
    ensures i.user.None? ==> r.author == "unknown"
    ensures i.user.Some? ==> r.author == i.user.value
    ensures && r.number == i.number && r.title == i.title && r.createdAt == i.createdAt
            && r.closedAt == i.closedAt && r.url == i.htmlUrl
            && r.labels == i.labels && r.assignees == i.assignees
  {
    Issue(i.number, i.title, IssueState.Open, AuthorOf(i.user), i.createdAt, i.closedAt,
          i.htmlUrl, i.labels, i.assignees)
  }

  function IssuesOf(raw: seq<RawIssue>): seq<Issue> {
    Map(NormalizeIssue, Filter(IsPlainIssue, raw))
  }

  /** The activity of one repository built from its raw streams. */
  function RepoActivityOf(name: string, raw: RawRepo, since: int, until: int): RepositoryActivity {
    RepositoryActivity(name, PullRequestsOf(raw, since, until), CommitsOf(raw.commits), IssuesOf(raw.openIssues))
  }

  /** One iteration of the outer loop of `_collect_pull_requests`: walks a
      bucket, stops at the first pull request created before `since` and
      skips those created after `until`. */
  method ScanBucketLoop(bucket: seq<RawPull>, since: int, until: int) returns (prs: seq<PullRequest>)
    ensures prs == ScanBucket(bucket, since, until)
  {
    prs := [];
    var i := 0;
    while i < |bucket|
      invariant 0 <= i <= |bucket|
      invariant forall j :: 0 <= j < i ==> bucket[j].createdAt >= since
      invariant prs == Map(NormalizePull, Filter(PullInWindow(since, until), bucket[..i]))
    {
      var pr := bucket[i];
      if pr.createdAt < since {
        break;
      }
      assert bucket[..i + 1] == bucket[..i] + [pr];
      FilterSnoc(PullInWindow(since, until), bucket[..i], pr);
      if pr.createdAt > until {
        i := i + 1;
        continue;
      }
      MapSnoc(NormalizePull, Filter(PullInWindow(since, until), bucket[..i]), pr);
      prs := prs + [NormalizePull(pr)];
      i := i + 1;
    }
    assert RecentPrefixLength(bucket, since) == i;
  }

  /** `_collect_pull_requests`: the open bucket's scan, then the closed
      bucket's. */
  method CollectPullRequests(openPulls: seq<RawPull>, closedPulls: seq<RawPull>, since: int, until: int)
    returns (prs: seq<PullRequest>)
    ensures prs == ScanBucket(openPulls, since, until) + ScanBucket(closedPulls, since, until)
  {
    prs := [];
    var buckets := [openPulls, closedPulls];
    var b := 0;
    while b < |buckets|
      invariant 0 <= b <= 2
      invariant b == 0 ==> prs == []
      invariant b == 1 ==> prs == ScanBucket(openPulls, since, until)
      invariant b == 2 ==> prs == ScanBucket(openPulls, since, until) + ScanBucket(closedPulls, since, until)
    {
      var found := ScanBucketLoop(buckets[b], since, until);
      prs := prs + found;
      b := b + 1;
    }
  }

  /** `_collect_commits`: every commit of the window except merge commits,
      in the API's order. */
  method CollectCommits(raw: seq<RawCommit>) returns (commits: seq<Commit>)
    ensures commits == CommitsOf(raw)
  {
    commits := [];
    var i := 0;
    while i < |raw|
      invariant 0 <= i <= |raw|
      invariant commits == Map(NormalizeCommit, Filter(NotMergeCommit, raw[..i]))
    {
      var c := raw[i];
      assert raw[..i + 1] == raw[..i] + [c];
      FilterSnoc(NotMergeCommit, raw[..i], c);
      if |c.parents| > 1 {
        i := i + 1;
        continue;
      }
      MapSnoc(NormalizeCommit, Filter(NotMergeCommit, raw[..i]), c);
      commits := commits + [NormalizeCommit(c)];
      i := i + 1;
    }
    assert raw[..i] == raw;
  }

  /** `_collect_open_issues`: the open issues without the pull requests the
      API lists among them, every one recorded as open. */
  method CollectOpenIssues(raw: seq<RawIssue>) returns (issues: seq<Issue>)
    ensures issues == IssuesOf(raw)
    ensures forall k :: 0 <= k < |issues| ==> IsOpen(issues[k])
  {
    issues := [];
    var i := 0;
    while i < |raw|
      invariant 0 <= i <= |raw|
      invariant issues == Map(NormalizeIssue, Filter(IsPlainIssue, raw[..i]))
    {
      var issue := raw[i];
      assert raw[..i + 1] == raw[..i] + [issue];
      FilterSnoc(IsPlainIssue, raw[..i], issue);
      if issue.pullRequest {
        i := i + 1;
        continue;
      }
      MapSnoc(NormalizeIssue, Filter(IsPlainIssue, raw[..i]), issue);
      issues := issues + [NormalizeIssue(issue)];
      i := i + 1;
    }
    assert raw[..i] == raw;
  }

  /** `_collect_repo_activity` once the repository has been fetched. */
  method CollectRepoActivity(name: string, raw: RawRepo, since: int, until: int)
    returns (activity: RepositoryActivity)
    ensures activity == RepoActivityOf(name, raw, since, until)
  {
    var prs := CollectPullRequests(raw.openPulls, raw.closedPulls, since, until);
    var commits := CollectCommits(raw.commits);
    var issues := CollectOpenIssues(raw.openIssues);
    activity := RepositoryActivity(name, prs, commits, issues);
  }

  /** The window actually used: absent bounds default to the week before
      `now` and to `now`. */
  function EffectiveSince(since: Option<int>, now: int): int {
    since.GetOr(now - WeekSeconds)
  }

  function EffectiveUntil(until: Option<int>, now: int): int {
    until.GetOr(now)
  }

  /** `collect_activity`: fetches the repositories in configured order and
      fails as soon as one fetch fails, naming that repository; it never
      returns a report missing a repository. */
  method CollectActivity(repos: seq<string>, since: Option<int>, until: Option<int>, now: int, fetch: Fetch)
    returns (r: Result<ActivityReport, CollectorError>)
    ensures var s, u := EffectiveSince(since, now), EffectiveUntil(until, now);
      r.Success? <==> forall i :: 0 <= i < |repos| ==> fetch(repos[i], s, u).Success?
    ensures var s, u := EffectiveSince(since, now), EffectiveUntil(until, now);
      r.Failure? ==>
        exists i :: 0 <= i < |repos|
          && (forall j :: 0 <= j < i ==> fetch(repos[j], s, u).Success?)
          && fetch(repos[i], s, u).Failure?
          && r.error == CollectorError(repos[i], fetch(repos[i], s, u).error)
    ensures var s, u := EffectiveSince(since, now), EffectiveUntil(until, now);
      r.Success? ==>
        && r.value.dateRangeStart == Some(s)
        && r.value.dateRangeEnd == Some(u)
        && |r.value.repositories| == |repos|
        && forall i :: 0 <= i < |repos| ==>
             r.value.repositories[i] == RepoActivityOf(repos[i], fetch(repos[i], s, u).value, s, u)
  {
    var s := EffectiveSince(since, now);
    var u := EffectiveUntil(until, now);
    var repositories: seq<RepositoryActivity> := [];
    var i := 0;
    while i < |repos|
      invariant 0 <= i <= |repos|
      invariant |repositories| == i
      invariant forall j :: 0 <= j < i ==> fetch(repos[j], s, u).Success?
      invariant forall j :: 0 <= j < i ==>
        repositories[j] == RepoActivityOf(repos[j], fetch(repos[j], s, u).value, s, u)
    {
      var name := repos[i];
      var fetched := fetch(name, s, u);
      if fetched.Failure? {
        return Failure(CollectorError(name, fetched.error));
      }
      var activity := CollectRepoActivity(name, fetched.value, s, u);
      repositories := repositories + [activity];
      i := i + 1;
    }
    r := Success(ActivityReport(repositories, Some(s), Some(u)));
  }

  /** Both window bounds are inclusive: every collected pull request was
      created within `[since, until]`. */
  lemma CollectedPullsInWindow(raw: RawRepo, since: int, until: int)
    ensures forall k :: 0 <= k < |PullRequestsOf(raw, since, until)| ==>
      since <= PullRequestsOf(raw, since, until)[k].createdAt <= until
  {
    BucketInWindow(raw.openPulls, since, until);
    BucketInWindow(raw.closedPulls, since, until);
  }

  lemma BucketInWindow(bucket: seq<RawPull>, since: int, until: int)
    ensures forall k :: 0 <= k < |ScanBucket(bucket, since, until)| ==>
      since <= ScanBucket(bucket, since, until)[k].createdAt <= until
  {
    var kept := Filter(PullInWindow(since, until), bucket[..RecentPrefixLength(bucket, since)]);
    forall k | 0 <= k < |kept|
      ensures since <= kept[k].createdAt <= until
    {
      assert PullInWindow(since, until)(kept[k]);
    }
  }

  /** Nothing at or after the first pull request created before `since`
      reaches the result: the bucket may as well end just before it. */
  lemma ScanStopsAtFirstOld(bucket: seq<RawPull>, k: nat, since: int, until: int)
    requires k < |bucket| && bucket[k].createdAt < since
    ensures ScanBucket(bucket, since, until) == ScanBucket(bucket[..k], since, until)
  {
    var n := RecentPrefixLength(bucket, since);
    var m := RecentPrefixLength(bucket[..k], since);
    assert n <= k;
    assert m == n;
    assert bucket[..k][..m] == bucket[..n];
  }

  /** When a bucket is ordered by creation time, newest first, the early stop
      loses nothing: the result is every in-window pull request. */
  lemma ScanOfCreationOrderedBucket(bucket: seq<RawPull>, since: int, until: int)
    requires forall i, j :: 0 <= i < j < |bucket| ==> bucket[i].createdAt >= bucket[j].createdAt
    ensures ScanBucket(bucket, since, until) == Map(NormalizePull, Filter(PullInWindow(since, until), bucket))
  {
    var n := RecentPrefixLength(bucket, since);
    OlderAfterFirstOld(bucket, n, since);
    FilterIgnoresOld(bucket, n, since, until);
  }

  /** The filter over a bucket equals the filter over its prefix when
      everything past the prefix is older than `since`. */
  lemma FilterIgnoresOld(bucket: seq<RawPull>, n: nat, since: int, until: int)
    requires n <= |bucket|
    requires forall i :: 0 <= i < |bucket[n..]| ==> bucket[n..][i].createdAt < since
    ensures Filter(PullInWindow(since, until), bucket) == Filter(PullInWindow(since, until), bucket[..n])
  {
    assert bucket == bucket[..n] + bucket[n..];
    NoneInWindow(bucket[n..], since, until);
    FilterConcat(PullInWindow(since, until), bucket[..n], bucket[n..]);
  }

  lemma OlderAfterFirstOld(bucket: seq<RawPull>, n: nat, since: int)
    requires forall i, j :: 0 <= i < j < |bucket| ==> bucket[i].createdAt >= bucket[j].createdAt
    requires n <= |bucket|
    requires n < |bucket| ==> bucket[n].createdAt < since
    ensures forall i :: 0 <= i < |bucket[n..]| ==> bucket[n..][i].createdAt < since
  {
    forall i | 0 <= i < |bucket[n..]|
      ensures bucket[n..][i].createdAt < since
    {
      assert bucket[n..][i] == bucket[n + i];
    }
  }

  lemma {:induction false} NoneInWindow(ps: seq<RawPull>, since: int, until: int)
    requires forall i :: 0 <= i < |ps| ==> ps[i].createdAt < since
    ensures Filter(PullInWindow(since, until), ps) == []
  {
    if |ps| > 0 {
      NoneInWindow(ps[1..], since, until);
    }
  }

  /** Without that ordering the early stop loses pull requests: a bucket
      whose first entry is older than `since` contributes nothing, even when
      its second entry lies in the window. */
  lemma ScanCanDropInWindowPull(stale: RawPull, recent: RawPull, since: int, until: int)
    requires stale.createdAt < since <= recent.createdAt <= until
    ensures ScanBucket([stale, recent], since, until) == []
    ensures Filter(PullInWindow(since, until), [stale, recent]) == [recent]
  {
    assert [stale, recent][1..] == [recent];
    assert [recent][1..] == [];
  }

  /** Every collected commit is a normalized non-merge commit of the API's
      answer: nothing with more than one parent gets through. */
  lemma CommitsAreNonMerge(raw: seq<RawCommit>)
    ensures forall k :: 0 <= k < |CommitsOf(raw)| ==> FromNonMergeCommit(raw, CommitsOf(raw)[k])
  {
    var kept := Filter(NotMergeCommit, raw);
    forall k | 0 <= k < |CommitsOf(raw)|
      ensures FromNonMergeCommit(raw, CommitsOf(raw)[k])
    {
      assert kept[k] in raw && NotMergeCommit(kept[k]);
      var j :| 0 <= j < |raw| && raw[j] == kept[k];
      assert CommitsOf(raw)[k] == NormalizeCommit(raw[j]);
    }
  }

  /** `c` is the normalized form of a commit of `raw` with at most one parent. */
  predicate FromNonMergeCommit(raw: seq<RawCommit>, c: Commit) {
    exists j :: 0 <= j < |raw| && |raw[j].parents| <= 1 && c == NormalizeCommit(raw[j])
  }

  /** Every non-merge commit of the API's answer is collected, and the merge
      commits are the only ones left out. */
  lemma NonMergeCommitsKept(raw: seq<RawCommit>)
    ensures forall j :: 0 <= j < |raw| && !IsMergeCommit(raw[j]) ==> NormalizeCommit(raw[j]) in CommitsOf(raw)
    ensures |CommitsOf(raw)| + Count(IsMergeCommit, raw) == |raw|
  {
    var kept := Filter(NotMergeCommit, raw);
    forall j | 0 <= j < |raw| && !IsMergeCommit(raw[j])
      ensures NormalizeCommit(raw[j]) in CommitsOf(raw)
    {
      assert NotMergeCommit(raw[j]);
      var k :| 0 <= k < |kept| && kept[k] == raw[j];
      assert CommitsOf(raw)[k] == NormalizeCommit(raw[j]);
    }
    CountComplement(NotMergeCommit, IsMergeCommit, raw);
  }

  /** The issue result holds no pull request and only open issues; a missing
      user becomes the `"unknown"` author. */
  lemma IssuesArePlainAndOpen(raw: seq<RawIssue>)
    ensures forall k :: 0 <= k < |IssuesOf(raw)| ==>
      IsOpen(IssuesOf(raw)[k])
      && exists j :: 0 <= j < |raw| && !raw[j].pullRequest && IssuesOf(raw)[k] == NormalizeIssue(raw[j])
    ensures forall j :: 0 <= j < |raw| && !raw[j].pullRequest ==> NormalizeIssue(raw[j]) in IssuesOf(raw)
  {
    var kept := Filter(IsPlainIssue, raw);
    forall k | 0 <= k < |IssuesOf(raw)|
      ensures exists j :: 0 <= j < |raw| && !raw[j].pullRequest && IssuesOf(raw)[k] == NormalizeIssue(raw[j])
    {
      assert kept[k] in raw;
      var j :| 0 <= j < |raw| && raw[j] == kept[k];
      assert IsPlainIssue(kept[k]);
      assert !raw[j].pullRequest && IssuesOf(raw)[k] == NormalizeIssue(raw[j]);
    }
    forall j | 0 <= j < |raw| && !raw[j].pullRequest
      ensures NormalizeIssue(raw[j]) in IssuesOf(raw)
    {
      assert IsPlainIssue(raw[j]);
      var k :| 0 <= k < |kept| && kept[k] == raw[j];
      assert IssuesOf(raw)[k] == NormalizeIssue(raw[j]);
    }
  }
}

=== FILE: github_models.dfy ===
/** The activity records of `data/github_models.py`: pull requests, commits,
    issues, the per-repository rollup and the multi-repository report, with
    their derived values computed on demand from the stored collections.
    Timestamps are integers; URLs are plain strings. */
module GithubModels {

  import opened Wrappers
  import opened Seqs
  import opened Text
  import opened SortedStrings

  datatype PRState = Open | Closed | Merged

  datatype IssueState = Open | Closed

  datatype PullRequest = PullRequest(
    number: int,
    title: string,
    state: PRState,
    author: string,
    createdAt: int,
    mergedAt: Option<int>,
    closedAt: Option<int>,
    url: string,
    additions: int,
    deletions: int,
    changedFiles: int)

  datatype Commit = Commit(
    sha: string,
    message: string,
    author: string,
    authorEmail: string,
    date: int,
    url: string,
    additions: int,
    deletions: int)

  datatype Issue = Issue(
    number: int,
    title: string,
    state: IssueState,
    author: string,
    createdAt: int,
    closedAt: Option<int>,
    url: string,
    labels: seq<string>,
    assignees: seq<string>)

  /** One repository's activity; `collected_at` is a clock reading and is
      not modelled. */
  datatype RepositoryActivity = RepositoryActivity(
    repoName: string,
    pullRequests: seq<PullRequest>,
    commits: seq<Commit>,
    openIssues: seq<Issue>)

  datatype ActivityReport = ActivityReport(
    repositories: seq<RepositoryActivity>,
    dateRangeStart: Option<int>,
    dateRangeEnd: Option<int>)

  /** The merged state and a merge timestamp are redundant signals: either
      one makes the pull request count as merged. */
  predicate IsMerged(pr: PullRequest) {
    pr.state == PRState.Merged || pr.mergedAt.Some?
  }

  predicate IsOpen(issue: Issue) {
    issue.state == IssueState.Open
  }

  /** `sha[:7]`: the first seven characters, or all of a shorter hash. */
  function ShortSha(c: Commit): (r: string)
    ensures |r| == if |c.sha| < 7 then |c.sha| else 7
    ensures r <= c.sha
  {
    if |c.sha| < 7 then c.sha else c.sha[..7]
  }

  /** `message.split("\n")[0]`: the message up to its first line break. */
  function ShortMessage(c: Commit): (r: string)
    ensures r <= c.message
    ensures '\n' !in r
    ensures |r| < |c.message| ==> c.message[|r|] == '\n'
    ensures '\n' !in c.message ==> r == c.message
  {
    var lines := Split(c.message, '\n');
    assert |lines| > 1 ==> Join(lines, "\n") == lines[0] + "\n" + Join(lines[1..], "\n");
    lines[0]
  }

  function TotalPrs(repo: RepositoryActivity): nat {
    |repo.pullRequests|
  }

  function TotalCommits(repo: RepositoryActivity): nat {
    |repo.commits|
  }

  function TotalOpenIssues(repo: RepositoryActivity): nat {
    |repo.openIssues|
  }

  /** Number of pull requests that count as merged. */
  function MergedPrs(repo: RepositoryActivity): (r: nat)
    ensures r <= TotalPrs(repo)
  {
    Count(IsMerged, repo.pullRequests)
  }

  function HasMergedState(pr: PullRequest): bool {
    pr.state == PRState.Merged
  }

  function HasMergeTime(pr: PullRequest): bool {
    pr.mergedAt.Some?
  }

  /** Either signal alone makes a pull request count as merged: the merged
      count is at least the number with the merged state and at least the
      number with a merge timestamp, and at most both together. */
  lemma MergedPrsSignals(repo: RepositoryActivity)
    ensures Count(HasMergedState, repo.pullRequests) <= MergedPrs(repo)
    ensures Count(HasMergeTime, repo.pullRequests) <= MergedPrs(repo)
    ensures MergedPrs(repo) <= Count(HasMergedState, repo.pullRequests) + Count(HasMergeTime, repo.pullRequests)
  {
    var ps := repo.pullRequests;
    CountMonotone(HasMergedState, IsMerged, ps);
    CountMonotone(HasMergeTime, IsMerged, ps);
    CountAtMostSum(ps);
  }

  lemma {:induction false} CountAtMostSum(ps: seq<PullRequest>)
    ensures Count(IsMerged, ps) <= Count(HasMergedState, ps) + Count(HasMergeTime, ps)
  {
    if |ps| > 0 {
      CountAtMostSum(ps[1..]);
    }
  }

  function PrAuthor(pr: PullRequest): string {
    pr.author
  }

  function CommitAuthor(c: Commit): string {
    c.author
  }

  /** Every author of a pull request or commit of the repository, with
      repetitions, pull requests first. */
  function Authors(repo: RepositoryActivity): seq<string> {
    Map(PrAuthor, repo.pullRequests) + Map(CommitAuthor, repo.commits)
  }

  /** `sorted(set(pr authors) | set(commit authors))`. */
  function UniqueContributors(repo: RepositoryActivity): (r: seq<string>)
    ensures StrictlySorted(r)
    ensures forall y :: y in r <==>
      (exists i :: 0 <= i < |repo.pullRequests| && repo.pullRequests[i].author == y)
      || (exists i :: 0 <= i < |repo.commits| && repo.commits[i].author == y)
  {
    var r := SortedUnique(Authors(repo));
    assert forall y :: y in Authors(repo) <==>
      y in Map(PrAuthor, repo.pullRequests) || y in Map(CommitAuthor, repo.commits);
    r
  }

  /** `UniqueContributors` is the only strictly sorted list of the
      repository's authors, so it is exactly Python's `sorted(set(...))`. */
  lemma UniqueContributorsCanonical(repo: RepositoryActivity, xs: seq<string>)
    requires StrictlySorted(xs)
    requires forall y :: y in xs <==> y in Authors(repo)
    ensures xs == UniqueContributors(repo)
  {
    StrictlySortedUnique(xs, UniqueContributors(repo));
  }

  /** `sum(f(repo) for repo in rs)`. */
  function SumOver(rs: seq<RepositoryActivity>, f: RepositoryActivity -> nat): nat {
    if |rs| == 0 then 0 else f(rs[0]) + SumOver(rs[1..], f)
  }

  function TotalRepos(report: ActivityReport): nat {
    |report.repositories|
  }

  function TotalPrsAcrossRepos(report: ActivityReport): nat {
    SumOver(report.repositories, TotalPrs)
  }

  function TotalCommitsAcrossRepos(report: ActivityReport): nat {
    SumOver(report.repositories, TotalCommits)
  }

  function TotalOpenIssuesAcrossRepos(report: ActivityReport): nat {
    SumOver(report.repositories, TotalOpenIssues)
  }

  /** The cross-repository sums are additive: the totals of a report over
      `a + b` are the totals over `a` plus those over `b`. */
  lemma {:induction false} SumOverConcat(a: seq<RepositoryActivity>, b: seq<RepositoryActivity>,
                                         f: RepositoryActivity -> nat)
    ensures SumOver(a + b, f) == SumOver(a, f) + SumOver(b, f)
  {
    if |a| == 0 {
      assert a + b == b;
    } else {
      assert (a + b)[1..] == a[1..] + b;
      SumOverConcat(a[1..], b, f);
    }
  }

  /** A repository's contribution to a cross-repository sum is its own value:
      appending one repository adds exactly its count. */
  lemma ReportTotalsAppend(report: ActivityReport, repo: RepositoryActivity)
    ensures var bigger := report.(repositories := report.repositories + [repo]);
      && TotalRepos(bigger) == TotalRepos(report) + 1
      && TotalPrsAcrossRepos(bigger) == TotalPrsAcrossRepos(report) + TotalPrs(repo)
      && TotalCommitsAcrossRepos(bigger) == TotalCommitsAcrossRepos(report) + TotalCommits(repo)
      && TotalOpenIssuesAcrossRepos(bigger) == TotalOpenIssuesAcrossRepos(report) + TotalOpenIssues(repo)
  {
    SumOverConcat(report.repositories, [repo], TotalPrs);
    SumOverConcat(report.repositories, [repo], TotalCommits);
    SumOverConcat(report.repositories, [repo], TotalOpenIssues);
  }

  /** A sum of per-repository values bounded pointwise is bounded. */
  lemma {:induction false} SumOverMonotone(rs: seq<RepositoryActivity>,
                                           f: RepositoryActivity -> nat, g: RepositoryActivity -> nat)
    requires forall i :: 0 <= i < |rs| ==> f(rs[i]) <= g(rs[i])
    ensures SumOver(rs, f) <= SumOver(rs, g)
  {
    if |rs| > 0 {
      SumOverMonotone(rs[1..], f, g);
    }
  }

  /** Merged pull requests across repositories never exceed all pull
      requests across repositories. */
  lemma MergedAcrossAtMostTotal(report: ActivityReport)
    ensures SumOver(report.repositories, MergedPrs) <= TotalPrsAcrossRepos(report)
  {
    SumOverMonotone(report.repositories, MergedPrs, TotalPrs);
  }

  /** A report of no repositories has every total zero. */
  lemma EmptyReportTotals(report: ActivityReport)
    requires report.repositories == []
    ensures TotalRepos(report) == 0 && TotalPrsAcrossRepos(report) == 0
    ensures TotalCommitsAcrossRepos(report) == 0 && TotalOpenIssuesAcrossRepos(report) == 0
  {
  }

  /** A repository with no activity has every count zero and no contributors. */
  lemma QuietRepository(repo: RepositoryActivity)
    requires repo.pullRequests == [] && repo.commits == [] && repo.openIssues == []
    ensures TotalPrs(repo) == 0 && MergedPrs(repo) == 0
    ensures TotalCommits(repo) == 0 && TotalOpenIssues(repo) == 0
    ensures UniqueContributors(repo) == []
  {
    SameElementsBothEmpty(UniqueContributors(repo), []);
  }

  /** The example of the contributor rule: pull request authors `x`, `y` and
      commit authors `y`, `z` give `["x", "y", "z"]`. */
  lemma ContributorExample(repo: RepositoryActivity)
    requires Map(PrAuthor, repo.pullRequests) == ["x", "y"]
    requires Map(CommitAuthor, repo.commits) == ["y", "z"]
    ensures UniqueContributors(repo) == ["x", "y", "z"]
  {
    var xs := ["x", "y", "z"];
    assert Less("x", "y") && Less("y", "z") && Less("x", "z");
    assert Authors(repo) == ["x", "y", "y", "z"];
    UniqueContributorsCanonical(repo, xs);
  }
}

=== FILE: report_models.dfy ===
/** The engineering-report records of `data/models.py`: the project status
    with its emoji and display name, the per-project update with its name
    validator, and the weekly report with its validators and the list,
    on-track and total accessors. Dates are day numbers. */
module ReportModels {

  import opened Wrappers
  import opened Seqs
  import opened Text

  datatype ProjectStatus = OnTrack | SlightDelay | Ahead | AtRisk

  /** The enum's string value. */
  function Value(s: ProjectStatus): string {
    match s
    case OnTrack => "on_track"
    case SlightDelay => "slight_delay"
    case Ahead => "ahead"
    case AtRisk => "at_risk"
  }

  /** `ProjectStatus(v)`: the status whose value is `v`, if any. */
  function ParseStatus(v: string): (r: Option<ProjectStatus>)
    ensures r.Some? ==> Value(r.value) == v
  {
    if v == "on_track" then Some(OnTrack)
    else if v == "slight_delay" then Some(SlightDelay)
    else if v == "ahead" then Some(Ahead)
    else if v == "at_risk" then Some(AtRisk)
    else None
  }

  /** Every status value reads back as its status, so the values are
      distinct. */
  lemma ParseStatusValue(s: ProjectStatus)
    ensures ParseStatus(Value(s)) == Some(s)
  {
  }

  /** The emoji table, keyed by status value. */
  const EmojiByValue: map<string, string> := map[
    "on_track" := "\U{1F7E2}",
    "slight_delay" := "\U{1F7E1}",
    "ahead" := "\U{1F535}",
    "at_risk" := "\U{1F534}"]

  /** `emoji()`: the table entry for the status's value; every status has
      one. */
  function Emoji(s: ProjectStatus): (r: string)
    ensures |r| == 1
  {
    EmojiByValue[Value(s)]
  }

  /** Distinct statuses show distinct emoji. */
  lemma EmojiInjective(a: ProjectStatus, b: ProjectStatus)
    requires Emoji(a) == Emoji(b)
    ensures a == b
  {
  }

  /** `display_name()`: underscores become spaces, then `str.title()`. */
  function DisplayName(s: ProjectStatus): (r: string)
    ensures |r| == |Value(s)|
  {
    Title(ReplaceChar(Value(s), '_', ' '))
  }

  lemma DisplayNameOnTrack()
    ensures DisplayName(OnTrack) == "On Track"
  {
    var spaced := ReplaceChar(Value(OnTrack), '_', ' ');
    assert spaced == "on track";
    var t := Title(spaced);
    assert t[0] == 'O' && t[1] == 'n' && t[2] == ' ' && t[3] == 'T';
    assert t[4] == 'r' && t[5] == 'a' && t[6] == 'c' && t[7] == 'k';
  }

  lemma DisplayNameSlightDelay()
    ensures DisplayName(SlightDelay) == "Slight Delay"
  {
    var spaced := ReplaceChar(Value(SlightDelay), '_', ' ');
    assert spaced == "slight delay";
    var t := Title(spaced);
    assert t[0] == 'S' && t[1] == 'l' && t[2] == 'i' && t[3] == 'g' && t[4] == 'h' && t[5] == 't';
    assert t[6] == ' ' && t[7] == 'D' && t[8] == 'e' && t[9] == 'l' && t[10] == 'a' && t[11] == 'y';
  }

  lemma DisplayNameAhead()
    ensures DisplayName(Ahead) == "Ahead"
  {
    var spaced := ReplaceChar(Value(Ahead), '_', ' ');
    assert spaced == "ahead";
    var t := Title(spaced);
    assert t[0] == 'A' && t[1] == 'h' && t[2] == 'e' && t[3] == 'a' && t[4] == 'd';
  }

  lemma DisplayNameAtRisk()
    ensures DisplayName(AtRisk) == "At Risk"
  {
    var spaced := ReplaceChar(Value(AtRisk), '_', ' ');
    assert spaced == "at risk";
    var t := Title(spaced);
    assert t[0] == 'A' && t[1] == 't' && t[2] == ' ' && t[3] == 'R';
    assert t[4] == 'i' && t[5] == 's' && t[6] == 'k';
  }

  /** A snake-case value: lower-case ASCII letters and underscores. */
  predicate SnakeCase(v: string) {
    forall i :: 0 <= i < |v| ==> IsLower(v[i]) || v[i] == '_'
  }

  function LowerAll(s: string): (r: string)
    ensures |r| == |s|
    ensures forall i :: 0 <= i < |s| ==> r[i] == ToLower(s[i])
  {
    seq(|s|, i requires 0 <= i < |s| => ToLower(s[i]))
  }

  /** The display name gives the value back: lower-case it and turn spaces
      into underscores. */
  lemma DisplayNameReadsBack(s: ProjectStatus)
    ensures ReplaceChar(LowerAll(DisplayName(s)), ' ', '_') == Value(s)
  {
    var v := Value(s);
    assert SnakeCase(v) by {
      forall i | 0 <= i < |v|
        ensures IsLower(v[i]) || v[i] == '_'
      {
      }
    }
    TitleOfSnakeCase(v);
  }

  lemma TitleOfSnakeCase(v: string)
    requires SnakeCase(v)
    ensures ReplaceChar(LowerAll(Title(ReplaceChar(v, '_', ' '))), ' ', '_') == v
  {
    var spaced := ReplaceChar(v, '_', ' ');
    var back := ReplaceChar(LowerAll(Title(spaced)), ' ', '_');
    forall i | 0 <= i < |v|
      ensures back[i] == v[i]
    {
      var t := Title(spaced)[i];
      assert t == ToUpper(spaced[i]) || t == ToLower(spaced[i]);
    }
  }

  /** The per-project update; the name is the validated, stripped one. */
  datatype ProjectUpdate = ProjectUpdate(
    name: string,
    status: ProjectStatus,
    statusText: string,
    completed: string,
    inProgress: string,
    blockers: string,
    nextWeek: string)

  /** Why a field was refused. */
  datatype FieldError =
    | TooShort(field: string)
    | Negative(field: string)
    | Invalid(field: string, message: string)

  /** The project name: the `min_length=1` constraint first, then the
      validator, which refuses a blank name and keeps the stripped one. */
  function ValidateName(v: string): (r: Result<string, FieldError>)
    ensures r.Success? <==> exists i :: 0 <= i < |v| && !IsSpace(v[i])
    ensures r.Success? ==> r.value == Strip(v) && |r.value| > 0
    ensures r.Failure? && |v| == 0 ==> r.error == TooShort("name")
    ensures r.Failure? && |v| > 0 ==> r.error == Invalid("name", "Project name cannot be empty")
  {
    if |v| < 1 then Failure(TooShort("name"))
    else if Strip(v) == "" then
      StripEmptyAllSpace(v);
      Failure(Invalid("name", "Project name cannot be empty"))
    else
      StripKeepsNonSpace(v);
      Success(Strip(v))
  }

  lemma StripEmptyAllSpace(v: string)
    requires Strip(v) == ""
    ensures forall i :: 0 <= i < |v| ==> IsSpace(v[i])
  {
  }

  lemma StripKeepsNonSpace(v: string)
    requires Strip(v) != ""
    ensures exists i :: 0 <= i < |v| && !IsSpace(v[i])
  {
    assert !IsSpace(v[LeadingSpaces(v)]);
  }

  /** A validated name passes validation again unchanged. */
  lemma ValidateNameIdempotent(v: string)
    requires ValidateName(v).Success?
    ensures ValidateName(ValidateName(v).value) == ValidateName(v)
  {
    var w := Strip(v);
    StripIdempotent(v);
    assert !IsSpace(w[0]);
  }

  /** Builds a project update the way the model does: only the name is
      validated. */
  function NewProjectUpdate(name: string, status: ProjectStatus, statusText: string,
                            completed: string, inProgress: string, blockers: string,
                            nextWeek: string): (r: Result<ProjectUpdate, FieldError>)
    ensures r.Success? <==> ValidateName(name).Success?
    ensures r.Success? ==> r.value.name == Strip(name) && r.value.status == status
  {
    match ValidateName(name)
    case Failure(e) => Failure(e)
    case Success(n) => Success(ProjectUpdate(n, status, statusText, completed, inProgress, blockers, nextWeek))
  }

  datatype WeeklyReport = WeeklyReport(
    weekStart: int,
    weekEnd: int,
    leadName: string,
    teamName: string,
    projects: seq<ProjectUpdate>,
    summaryBullets: seq<string>,
    nextMilestone: string,
    nextMilestoneDate: Option<int>,
    bugsFixed: int,
    ticketsResolved: int,
    featuresShipped: int)

  /** `validate_week_end`: the end may equal the start but not precede it.
      When the start itself failed validation there is nothing to compare
      with and the end is accepted. */
  function ValidateWeekEnd(weekStart: Option<int>, weekEnd: int): (r: Result<int, FieldError>)
    ensures r.Success? <==> weekStart.None? || weekStart.value <= weekEnd
    ensures r.Success? ==> r.value == weekEnd
  {
    if weekStart.Some? && weekEnd < weekStart.value then
      Failure(Invalid("week_end", "week_end must be after week_start"))
    else Success(weekEnd)
  }

  /** `validate_projects`: at least one project update. */
  function ValidateProjects(ps: seq<ProjectUpdate>): (r: Result<seq<ProjectUpdate>, FieldError>)
    ensures r.Success? <==> |ps| > 0
    ensures r.Success? ==> r.value == ps
  {
    if |ps| == 0 then Failure(Invalid("projects", "At least one project update is required"))
    else Success(ps)
  }

  /** The constraints the report's fields must meet. */
  predicate ReportValid(r: WeeklyReport) {
    && r.weekStart <= r.weekEnd
    && |r.leadName| >= 1
    && |r.projects| >= 1
    && r.bugsFixed >= 0 && r.ticketsResolved >= 0 && r.featuresShipped >= 0
  }

  /** Every field error of a candidate report, in field order; the report
      is built only when there is none. The `min_items=1` constraint on the
      projects is checked before their validator, so an empty list is
      refused as too short and `ValidateProjects` never sees it. */
  function ReportErrors(r: WeeklyReport): (errs: seq<FieldError>)
    ensures |errs| == 0 <==> ReportValid(r)
  {
    (match ValidateWeekEnd(Some(r.weekStart), r.weekEnd) case Failure(e) => [e] case Success(_) => [])
    + (if |r.leadName| < 1 then [TooShort("lead_name")] else [])
    + (if |r.projects| < 1 then [TooShort("projects")] else [])
    + (if r.bugsFixed < 0 then [Negative("bugs_fixed")] else [])
    + (if r.ticketsResolved < 0 then [Negative("tickets_resolved")] else [])
    + (if r.featuresShipped < 0 then [Negative("features_shipped")] else [])
  }

  /** Validation of a whole report: all errors, or the report unchanged. */
  function ValidateWeeklyReport(r: WeeklyReport): (res: Result<WeeklyReport, seq<FieldError>>)
    ensures res.Success? <==> ReportValid(r)
    ensures res.Success? ==> res.value == r
    ensures res.Failure? ==> |res.error| > 0
  {
    var errs := ReportErrors(r);
    if |errs| == 0 then Success(r) else Failure(errs)
  }

  /** The example of a single-day week: equal start and end pass. */
  lemma SameDayWeekAccepted(day: int)
    ensures ValidateWeekEnd(Some(day), day) == Success(day)
    ensures ValidateWeekEnd(Some(day), day - 1).Failure?
  {
  }

  function ProjectName(p: ProjectUpdate): string {
    p.name
  }

  /** `get_project_list_str`. */
  function GetProjectListStr(r: WeeklyReport): string {
    Join(Map(ProjectName, r.projects), ", ")
  }

  /** Validated names are stripped, so when none holds a comma the project
      list splits back into the names, in order. */
  lemma ProjectListRoundTrip(r: WeeklyReport, raw: seq<string>)
    requires |raw| == |r.projects| >= 1
    requires forall i :: 0 <= i < |raw| ==> ValidateName(raw[i]).Success?
    requires forall i :: 0 <= i < |raw| ==> r.projects[i].name == ValidateName(raw[i]).value
    requires forall i :: 0 <= i < |raw| ==> ',' !in r.projects[i].name
    ensures StripAll(Split(GetProjectListStr(r), ',')) == Map(ProjectName, r.projects)
  {
    var names := Map(ProjectName, r.projects);
    forall i | 0 <= i < |names|
      ensures ',' !in names[i] && Strip(names[i]) == names[i]
    {
      StripIdempotent(raw[i]);
    }
    SplitStripCommaSpaceJoin(names);
  }

  predicate OnTrackOrAhead(p: ProjectUpdate) {
    p.status == OnTrack || p.status == Ahead
  }

  predicate BehindOrAtRisk(p: ProjectUpdate) {
    p.status == SlightDelay || p.status == AtRisk
  }

  /** `get_on_track_count`: projects on track or ahead. */
  function GetOnTrackCount(r: WeeklyReport): (n: nat)
    ensures n <= GetTotalCount(r)
  {
    Count(OnTrackOrAhead, r.projects)
  }

  /** `get_total_count`. */
  function GetTotalCount(r: WeeklyReport): nat {
    |r.projects|
  }

  /** The on-track count and the count of delayed or at-risk projects make
      up the total. */
  lemma OnTrackPlusBehindIsTotal(r: WeeklyReport)
    ensures GetOnTrackCount(r) + Count(BehindOrAtRisk, r.projects) == GetTotalCount(r)
  {
    CountComplement(OnTrackOrAhead, BehindOrAtRisk, r.projects);
  }

  /** A validated report has at least one project to count. */
  lemma ValidatedReportCounts(r: WeeklyReport)
    requires ValidateWeeklyReport(r).Success?
    ensures GetTotalCount(r) >= 1
    ensures GetOnTrackCount(r) <= GetTotalCount(r)
  {
  }

  /** Every project on track or ahead makes the on-track count the total. */
  lemma AllOnTrack(r: WeeklyReport)
    requires forall i :: 0 <= i < |r.projects| ==> OnTrackOrAhead(r.projects[i])
    ensures GetOnTrackCount(r) == GetTotalCount(r)
  {
    FilterAll(OnTrackOrAhead, r.projects);
  }
}

=== FILE: seqs.dfy ===
/** Order-preserving map and filter over sequences, the shape of Python's
    list comprehensions `[f(x) for x in s if p(x)]`. */
module Seqs {

  /** `[f(x) for x in s]`. */
  function Map<T, U>(f: T -> U, s: seq<T>): (r: seq<U>)
    ensures |r| == |s|
    ensures forall i :: 0 <= i < |s| ==> r[i] == f(s[i])
  {
    seq(|s|, i requires 0 <= i < |s| => f(s[i]))
  }

  /** `[x for x in s if p(x)]`: the elements of `s` satisfying `p`, in order. */
  function Filter<T>(p: T -> bool, s: seq<T>): (r: seq<T>)
    ensures |r| <= |s|
    ensures forall i :: 0 <= i < |r| ==> r[i] in s && p(r[i])
    ensures forall i :: 0 <= i < |s| && p(s[i]) ==> s[i] in r
  {
    if |s| == 0 then []
    else (if p(s[0]) then [s[0]] else []) + Filter(p, s[1..])
  }

  /** `sum(1 for x in s if p(x))`. */
  function Count<T>(p: T -> bool, s: seq<T>): nat {
    |Filter(p, s)|
  }

  /** The elements a filter keeps and the ones it drops add up to all of
      them. */
  lemma {:induction false} CountComplement<T>(p: T -> bool, q: T -> bool, s: seq<T>)
    requires forall i :: 0 <= i < |s| ==> q(s[i]) == !p(s[i])
    ensures Count(p, s) + Count(q, s) == |s|
  {
    if |s| > 0 {
      CountComplement(p, q, s[1..]);
    }
  }

  /** Filtering commutes with concatenation: the filter keeps source order. */
  lemma {:induction false} FilterConcat<T>(p: T -> bool, a: seq<T>, b: seq<T>)
    ensures Filter(p, a + b) == Filter(p, a) + Filter(p, b)
  {
    if |a| == 0 {
      assert a + b == b;
    } else {
      assert (a + b)[1..] == a[1..] + b;
      FilterConcat(p, a[1..], b);
    }
  }

  /** Filtering one more element at the back extends the result at the back. */
  lemma FilterSnoc<T>(p: T -> bool, a: seq<T>, x: T)
    ensures Filter(p, a + [x]) == Filter(p, a) + (if p(x) then [x] else [])
  {
    FilterConcat(p, a, [x]);
    assert Filter(p, [x]) == (if p(x) then [x] else []) + Filter(p, []);
  }

  /** A filter that keeps no element gives the empty sequence. */
  lemma {:induction false} FilterNone<T>(p: T -> bool, s: seq<T>)
    requires forall i :: 0 <= i < |s| ==> !p(s[i])
    ensures Filter(p, s) == []
  {
    if |s| > 0 {
      FilterNone(p, s[1..]);
    }
  }

  /** A filter that keeps every element is the identity. */
  lemma {:induction false} FilterAll<T>(p: T -> bool, s: seq<T>)
    requires forall i :: 0 <= i < |s| ==> p(s[i])
    ensures Filter(p, s) == s
  {
    if |s| > 0 {
      FilterAll(p, s[1..]);
    }
  }

  /** A weaker test keeps at least as many elements. */
  lemma {:induction false} CountMonotone<T>(p: T -> bool, q: T -> bool, s: seq<T>)
    requires forall i :: 0 <= i < |s| ==> p(s[i]) ==> q(s[i])
    ensures Count(p, s) <= Count(q, s)
  {
    if |s| > 0 {
      CountMonotone(p, q, s[1..]);
    }
  }

  /** An element the filter keeps sits, in the result, after exactly the
      kept elements before it. */
  lemma FilterPosition<T>(p: T -> bool, s: seq<T>, i: nat)
    requires i < |s| && p(s[i])
    ensures Count(p, s[..i]) < |Filter(p, s)|
    ensures Filter(p, s)[Count(p, s[..i])] == s[i]
  {
    assert s == s[..i] + [s[i]] + s[i + 1..];
    FilterConcat(p, s[..i] + [s[i]], s[i + 1..]);
    FilterSnoc(p, s[..i], s[i]);
  }

  /** Mapping distributes over appending one element. */
  lemma MapSnoc<T, U>(f: T -> U, a: seq<T>, x: T)
    ensures Map(f, a + [x]) == Map(f, a) + [f(x)]
  {
  }
}

=== FILE: sorted_strings.dfy ===
/** Python's `sorted(set(xs))` for strings: the duplicate-free list of the
    elements of `xs` in code-point lexicographic order, which is how Python
    compares `str` values. */
module SortedStrings {

  /** `a < b` on Python strings: compare code points left to right; a proper
      prefix is smaller. */
  predicate Less(a: string, b: string) {
    if |a| == 0 then |b| > 0
    else if |b| == 0 then false
    else a[0] < b[0] || (a[0] == b[0] && Less(a[1..], b[1..]))
  }

  lemma {:induction false} LessIrreflexive(a: string)
    ensures !Less(a, a)
  {
    if |a| > 0 {
      LessIrreflexive(a[1..]);
    }
  }

  lemma {:induction false} LessTransitive(a: string, b: string, c: string)
    requires Less(a, b) && Less(b, c)
    ensures Less(a, c)
  {
    if |a| > 0 && |b| > 0 && |c| > 0 && a[0] == b[0] == c[0] {
      LessTransitive(a[1..], b[1..], c[1..]);
    }
  }

  lemma {:induction false} LessTotal(a: string, b: string)
    requires a != b
    ensures Less(a, b) || Less(b, a)
  {
    if |a| > 0 && |b| > 0 && a[0] == b[0] {
      assert a == [a[0]] + a[1..] && b == [b[0]] + b[1..];
      LessTotal(a[1..], b[1..]);
    }
  }

  lemma LessAsymmetric(a: string, b: string)
    requires Less(a, b)
    ensures !Less(b, a)
  {
    if Less(b, a) {
      LessTransitive(a, b, a);
      LessIrreflexive(a);
    }
  }

  /** Every element is smaller than every later one, so there are no
      duplicates. */
  predicate StrictlySorted(xs: seq<string>) {
    forall i, j :: 0 <= i < j < |xs| ==> Less(xs[i], xs[j])
  }

  /** Puts `x` into its place in a strictly sorted list, unless it is there. */
  function Insert(xs: seq<string>, x: string): (r: seq<string>)
    requires StrictlySorted(xs)
    ensures StrictlySorted(r)
    ensures forall y :: y in r <==> y in xs || y == x
  {
    if |xs| == 0 then [x]
    else if x == xs[0] then xs
    else if Less(x, xs[0]) then
      LessIrreflexiveAll(xs);
      forall j | 0 < j < |xs| ensures Less(x, xs[j]) {
        LessTransitive(x, xs[0], xs[j]);
      }
      [x] + xs
    else
      LessTotal(x, xs[0]);
      var rest := Insert(xs[1..], x);
      assert forall y :: y in rest ==> Less(xs[0], y);
      [xs[0]] + rest
  }

  /** Helper fact kept local to `Insert`: no element of a strictly sorted
      list is smaller than itself. */
  lemma LessIrreflexiveAll(xs: seq<string>)
    ensures forall i :: 0 <= i < |xs| ==> !Less(xs[i], xs[i])
  {
    forall i | 0 <= i < |xs| {
      LessIrreflexive(xs[i]);
    }
  }

  /** `sorted(set(xs))`: strictly sorted, with exactly the elements of `xs`. */
  function SortedUnique(xs: seq<string>): (r: seq<string>)
    ensures StrictlySorted(r)
    ensures forall y :: y in r <==> y in xs
  {
    if |xs| == 0 then [] else Insert(SortedUnique(xs[1..]), xs[0])
  }

  /** There is only one strictly sorted list with a given set of elements,
      so `SortedUnique` is THE sorted form of the set of its input. */
  lemma {:induction false} StrictlySortedUnique(a: seq<string>, b: seq<string>)
    requires StrictlySorted(a) && StrictlySorted(b)
    requires forall y :: y in a <==> y in b
    ensures a == b
  {
    SameElementsBothEmpty(a, b);
    if |a| > 0 {
      if a[0] != b[0] {
        assert b[0] in a;
        assert a[0] in b;
        assert Less(a[0], b[0]);
        assert Less(b[0], a[0]);
        LessAsymmetric(a[0], b[0]);
      }
      forall y
        ensures y in a[1..] <==> y in b[1..]
      {
        LessIrreflexive(y);
        if y in a[1..] {
          var j :| 1 <= j < |a| && a[j] == y;
          assert Less(a[0], y);
          assert y in b && y != b[0];
          var k :| 0 <= k < |b| && b[k] == y;
          assert b[1..][k - 1] == y;
        }
        if y in b[1..] {
          var j :| 1 <= j < |b| && b[j] == y;
          assert Less(b[0], y);
          assert y in a && y != a[0];
          var k :| 0 <= k < |a| && a[k] == y;
          assert a[1..][k - 1] == y;
        }
      }
      StrictlySortedUnique(a[1..], b[1..]);
    }
  }

  lemma SameElementsBothEmpty(a: seq<string>, b: seq<string>)
    requires forall y :: y in a <==> y in b
    ensures |a| == 0 <==> |b| == 0
  {
    if |a| > 0 {
      assert a[0] in b;
    }
    if |b| > 0 {
      assert b[0] in a;
    }
  }

  /** The set of the elements of a sequence. */
  function Elements(xs: seq<string>): (s: set<string>)
    ensures forall y :: y in s <==> y in xs
  {
    set y | y in xs
  }

  /** A list without duplicates has as many elements as its element set. */
  lemma {:induction false} StrictlySortedCardinality(xs: seq<string>)
    requires StrictlySorted(xs)
    ensures |Elements(xs)| == |xs|
  {
    if |xs| > 0 {
      StrictlySortedCardinality(xs[1..]);
      LessIrreflexiveAll(xs);
      assert xs[0] !in xs[1..];
      assert Elements(xs) == {xs[0]} + Elements(xs[1..]);
    }
  }
}

=== FILE: stats_formatter.dfy ===
/** The summaries of `utils/github_stats_formatter.py`: the one-line weekly
    summary built from optional clauses, and the multi-line breakdown with
    one line per active repository and a contributor line. */
module StatsFormatter {

  import opened Wrappers
  import opened Seqs
  import opened Text
  import opened SortedStrings
  import opened GithubModels

  const Prefix := "Week's Coding: "
  const NoActivity := "No activity tracked"

  /** The clauses the weekly summary can hold, in the order they appear. */
  datatype Clause = MergedClause(n: nat) | CommitsClause(n: nat) | ReposClause(n: nat)

  /** Python's `'s' if n != 1 else ''`. */
  function Plural(n: nat): string {
    if n != 1 then "s" else ""
  }

  /** Position of a clause in the fixed order merged, commits, repos. */
  function Rank(c: Clause): nat {
    match c
    case MergedClause(_) => 0
    case CommitsClause(_) => 1
    case ReposClause(_) => 2
  }

  /** The counts a clause can show: merged pull requests and commits only
      when positive, repositories only when more than one. */
  predicate ValidClause(c: Clause) {
    match c
    case MergedClause(n) => n > 0
    case CommitsClause(n) => n > 0
    case ReposClause(n) => n > 1
  }

  /** Each kind of clause at most once, in the fixed order. */
  predicate WellOrdered(cs: seq<Clause>) {
    forall i, j :: 0 <= i < j < |cs| ==> Rank(cs[i]) < Rank(cs[j])
  }

  /** The text of one clause. It has no comma and no whitespace at either
      end, so it survives the `", "` join and a split-and-strip. The repos
      clause, and only it, starts with "across "; the other two start with
      their count. */
  function RenderClause(c: Clause): (r: string)
    ensures |r| > 0 && !IsSpace(r[0]) && !IsSpace(r[|r| - 1])
    ensures ',' !in r && '\n' !in r
    ensures r[0] == 'a' || IsDigit(r[0])
    ensures c.ReposClause? <==> r[0] == 'a'
    ensures r[0] == 'a' ==> |r| > 7 && r[..7] == "across "
    ensures !c.ReposClause? ==> |NatToString(c.n)| <= |r| && r[..|NatToString(c.n)|] == NatToString(c.n)
  {
    var d := NatToString(c.n);
    DigitsAvoid(c.n, ',');
    DigitsAvoid(c.n, '\n');
    match c
    case MergedClause(n) => d + " PR" + Plural(n) + " merged"
    case CommitsClause(n) => d + " commit" + Plural(n)
    case ReposClause(n) => "across " + d + " repos"
  }

  /** The clauses that fire for the given totals. */
  function SummaryClauses(merged: nat, commits: nat, repos: nat): (cs: seq<Clause>)
    ensures WellOrdered(cs)
    ensures forall i :: 0 <= i < |cs| ==> ValidClause(cs[i])
    ensures MergedClause(merged) in cs <==> merged > 0
    ensures CommitsClause(commits) in cs <==> commits > 0
    ensures ReposClause(repos) in cs <==> repos > 1
    ensures |cs| == 0 <==> merged == 0 && commits == 0 && repos <= 1
  {
    (if merged > 0 then [MergedClause(merged)] else [])
    + (if commits > 0 then [CommitsClause(commits)] else [])
    + (if repos > 1 then [ReposClause(repos)] else [])
  }

  /** The weekly summary for the three totals it reads. */
  function FormatCounts(merged: nat, commits: nat, repos: nat): (r: string)
    ensures Prefix <= r
  {
    var parts := SummaryClauses(merged, commits, repos);
    if |parts| == 0 then Prefix + NoActivity
    else Prefix + Join(Map(RenderClause, parts), ", ")
  }

  /** `format_weekly_summary`: the merged count is the sum of the
      repositories' merged pull requests. */
  function FormatWeeklySummary(report: ActivityReport): (r: string)
    ensures Prefix <= r
  {
    FormatCounts(SumOver(report.repositories, MergedPrs),
                 TotalCommitsAcrossRepos(report), TotalRepos(report))
  }

  /** The totals a weekly summary shows; a repository count of one or less
      is not shown and reads back as zero. */
  datatype SummaryCounts = SummaryCounts(merged: nat, commits: nat, repos: nat)

  /** Reads one clause back. */
  function ParseClause(s: string): Option<Clause> {
    if |s| >= 13 && s[..7] == "across " && s[|s| - 6..] == " repos" then
      match ParseNat(s[7..|s| - 6])
      case Some(n) => Some(ReposClause(n))
      case None => None
    else if ' ' in s then
      var i := IndexOf(s, ' ');
      match ParseNat(s[..i])
      case None => None
      case Some(n) =>
        if s[i..] == " PR" + Plural(n) + " merged" then Some(MergedClause(n))
        else if s[i..] == " commit" + Plural(n) then Some(CommitsClause(n))
        else None
    else None
  }

  /** Reads every piece as a clause, failing when one is not. */
  function ParseClauses(pieces: seq<string>): (r: Option<seq<Clause>>)
    ensures r.Some? ==> |r.value| == |pieces|
  {
    if |pieces| == 0 then Some([])
    else
      match ParseClause(pieces[0])
      case None => None
      case Some(c) =>
        match ParseClauses(pieces[1..])
        case None => None
        case Some(cs) => Some([c] + cs)
  }

  /** The totals named by a list of clauses; an absent clause reads as 0. */
  function CountsOf(cs: seq<Clause>): SummaryCounts {
    if |cs| == 0 then SummaryCounts(0, 0, 0)
    else
      var rest := CountsOf(cs[1..]);
      match cs[0]
      case MergedClause(n) => rest.(merged := n)
      case CommitsClause(n) => rest.(commits := n)
      case ReposClause(n) => rest.(repos := n)
  }

  /** Reads a weekly summary back into the totals it shows. */
  function ParseSummary(s: string): Option<SummaryCounts> {
    if |s| < |Prefix| || s[..|Prefix|] != Prefix then None
    else
      var rest := s[|Prefix|..];
      if rest == NoActivity then Some(SummaryCounts(0, 0, 0)) else ParseClauseList(rest)
  }

  /** Reads the `", "`-separated clauses after the prefix; they must be
      valid, well ordered and at least one. */
  function ParseClauseList(rest: string): Option<SummaryCounts> {
    match ParseClauses(StripAll(Split(rest, ',')))
    case None => None
    case Some(cs) =>
      if |cs| > 0 && WellOrdered(cs) && (forall i :: 0 <= i < |cs| ==> ValidClause(cs[i]))
      then Some(CountsOf(cs))
      else None
  }

  /** A number followed by a text that starts with a space: the first space
      is where the number ends. */
  lemma NumberThenWords(n: nat, tail: string)
    requires |tail| > 0 && tail[0] == ' '
    ensures var s := NatToString(n) + tail;
      && ' ' in s
      && IndexOf(s, ' ') == |NatToString(n)|
      && !(|s| >= 13 && s[..7] == "across ")
  {
    var d := NatToString(n);
    var s := d + tail;
    DigitsAvoid(n, ' ');
    IndexOfAfter(d, tail, ' ');
    assert s[0] == d[0] && IsDigit(d[0]);
  }

  /** Reading a rendered clause gives the clause back. */
  lemma ParseRenderClause(c: Clause)
    ensures ParseClause(RenderClause(c)) == Some(c)
  {
    match c
    case ReposClause(n) => ParseRenderRepos(n);
    case MergedClause(n) => ParseRenderMerged(n);
    case CommitsClause(n) => ParseRenderCommits(n);
  }

  lemma ParseRenderRepos(n: nat)
    ensures ParseClause(RenderClause(ReposClause(n))) == Some(ReposClause(n))
  {
    var d := NatToString(n);
    var s := RenderClause(ReposClause(n));
    ParseNatRoundTrip(n);
    assert s[..7] == "across ";
    assert s[|s| - 6..] == " repos";
    assert s[7..|s| - 6] == d;
  }

  lemma ParseRenderMerged(n: nat)
    ensures ParseClause(RenderClause(MergedClause(n))) == Some(MergedClause(n))
  {
    var d := NatToString(n);
    var tail := " PR" + Plural(n) + " merged";
    var s := RenderClause(MergedClause(n));
    ParseNatRoundTrip(n);
    assert s == d + tail;
    NumberThenWords(n, tail);
    assert s[..|d|] == d && s[|d|..] == tail;
  }

  lemma ParseRenderCommits(n: nat)
    ensures ParseClause(RenderClause(CommitsClause(n))) == Some(CommitsClause(n))
  {
    var d := NatToString(n);
    var tail := " commit" + Plural(n);
    var s := RenderClause(CommitsClause(n));
    ParseNatRoundTrip(n);
    assert s == d + tail;
    NumberThenWords(n, tail);
    assert s[..|d|] == d && s[|d|..] == tail;
    assert tail[1] != (" PR" + Plural(n) + " merged")[1];
  }

  /** Reading every rendered clause gives the clauses back. */
  lemma {:induction false} ParseRenderClauses(cs: seq<Clause>)
    ensures ParseClauses(Map(RenderClause, cs)) == Some(cs)
  {
    if |cs| > 0 {
      ParseRenderClause(cs[0]);
      ParseRenderClauses(cs[1..]);
      assert Map(RenderClause, cs)[1..] == Map(RenderClause, cs[1..]);
      assert cs == [cs[0]] + cs[1..];
    }
  }

  /** The clauses that fire name back exactly the totals shown. */
  lemma CountsOfSummaryClauses(merged: nat, commits: nat, repos: nat)
    ensures CountsOf(SummaryClauses(merged, commits, repos))
         == SummaryCounts(merged, commits, if repos > 1 then repos else 0)
  {
    var cs := SummaryClauses(merged, commits, repos);
    var tail := if repos > 1 then [ReposClause(repos)] else [];
    assert CountsOf(tail) == SummaryCounts(0, 0, if repos > 1 then repos else 0) by {
      if repos > 1 {
        assert tail[1..] == [];
      }
    }
    var mid := (if commits > 0 then [CommitsClause(commits)] else []) + tail;
    assert CountsOf(mid) == SummaryCounts(0, commits, if repos > 1 then repos else 0) by {
      if commits > 0 {
        assert mid[1..] == tail;
      }
    }
    if merged > 0 {
      assert cs[1..] == mid;
    } else {
      assert cs == mid;
    }
  }

  /** The weekly summary reads back as the totals it was built from, with a
      repository count of one or less read as zero: no two distinct totals
      share a summary. */
  lemma ParseFormatCounts(merged: nat, commits: nat, repos: nat)
    ensures ParseSummary(FormatCounts(merged, commits, repos))
         == Some(SummaryCounts(merged, commits, if repos > 1 then repos else 0))
  {
    var parts := SummaryClauses(merged, commits, repos);
    if |parts| > 0 {
      ParseJoinedClauses(parts);
      CountsOfSummaryClauses(merged, commits, repos);
    } else {
      var s := Prefix + NoActivity;
      assert s[..|Prefix|] == Prefix && s[|Prefix|..] == NoActivity;
    }
  }

  /** A summary built from well-ordered, valid clauses reads back as the
      totals those clauses name. */
  lemma ParseJoinedClauses(cs: seq<Clause>)
    requires |cs| > 0 && WellOrdered(cs)
    requires forall i :: 0 <= i < |cs| ==> ValidClause(cs[i])
    ensures ParseSummary(Prefix + Join(Map(RenderClause, cs), ", ")) == Some(CountsOf(cs))
  {
    var body := Join(Map(RenderClause, cs), ", ");
    ClausesNotNoActivity(cs);
    ParseClauseListOf(cs);
    ParseAfterPrefix(body);
  }

  lemma ParseAfterPrefix(body: string)
    requires body != NoActivity
    ensures ParseSummary(Prefix + body) == ParseClauseList(body)
  {
    var s := Prefix + body;
    assert s[..|Prefix|] == Prefix && s[|Prefix|..] == body;
  }

  lemma ParseClauseListOf(cs: seq<Clause>)
    requires |cs| > 0 && WellOrdered(cs)
    requires forall i :: 0 <= i < |cs| ==> ValidClause(cs[i])
    ensures ParseClauseList(Join(Map(RenderClause, cs), ", ")) == Some(CountsOf(cs))
  {
    SplitRenderedClauses(cs);
    ParseRenderClauses(cs);
  }

  /** Joined clauses never spell the "No activity tracked" text. */
  lemma ClausesNotNoActivity(cs: seq<Clause>)
    requires |cs| > 0
    ensures Join(Map(RenderClause, cs), ", ") != NoActivity
  {
    var texts := Map(RenderClause, cs);
    JoinStartsWithFirst(texts, ", ");
    assert Join(texts, ", ")[0] == texts[0][0];
  }

  /** Splitting joined clauses at commas and stripping gives their texts. */
  lemma SplitRenderedClauses(cs: seq<Clause>)
    requires |cs| > 0
    ensures StripAll(Split(Join(Map(RenderClause, cs), ", "), ',')) == Map(RenderClause, cs)
  {
    var texts := Map(RenderClause, cs);
    forall i | 0 <= i < |texts|
      ensures ',' !in texts[i] && Strip(texts[i]) == texts[i]
    {
      StripOfStripped(texts[i]);
    }
    SplitStripCommaSpaceJoin(texts);
  }

  /** "No activity tracked" is printed exactly when no clause fires: no
      merged pull request, no commit and at most one repository. */
  lemma NoActivityExactly(merged: nat, commits: nat, repos: nat)
    ensures FormatCounts(merged, commits, repos) == Prefix + NoActivity
        <==> merged == 0 && commits == 0 && repos <= 1
  {
    var s := Prefix + NoActivity;
    assert s[..|Prefix|] == Prefix && s[|Prefix|..] == NoActivity;
    ParseFormatCounts(merged, commits, repos);
  }

  /** The weekly summary of a report reads back as the report's merged,
      commit and repository totals. */
  lemma WeeklySummaryReadsBack(report: ActivityReport)
    ensures ParseSummary(FormatWeeklySummary(report))
         == Some(SummaryCounts(SumOver(report.repositories, MergedPrs),
                               TotalCommitsAcrossRepos(report),
                               if TotalRepos(report) > 1 then TotalRepos(report) else 0))
  {
    ParseFormatCounts(SumOver(report.repositories, MergedPrs),
                      TotalCommitsAcrossRepos(report), TotalRepos(report));
  }

  /** One merged pull request and one commit in one repository. */
  lemma SingularExample()
    ensures FormatCounts(1, 1, 1) == Prefix + "1 PR merged, 1 commit"
  {
    var texts := ["1 PR merged", "1 commit"];
    RenderedSingulars();
    FormatCountsAs(1, 1, 1, [MergedClause(1), CommitsClause(1)], texts);
    JoinPair(texts[0], texts[1], ", ");
  }

  /** Several repositories with nothing merged and no commits still print
      the repository clause rather than "No activity tracked". */
  lemma ReposOnlyExample()
    ensures FormatCounts(0, 0, 3) == Prefix + "across 3 repos"
  {
    RenderedRepos();
    FormatCountsAs(0, 0, 3, [ReposClause(3)], ["across 3 repos"]);
  }

  /** All three clauses, with a comma before "across". */
  lemma FullExample()
    ensures FormatCounts(15, 47, 3) == Prefix + "15 PRs merged" + ", " + "47 commits" + ", " + "across 3 repos"
  {
    var texts := ["15 PRs merged", "47 commits", "across 3 repos"];
    RenderedPlurals();
    FormatCountsAs(15, 47, 3, [MergedClause(15), CommitsClause(47), ReposClause(3)], texts);
    JoinTriple(texts[0], texts[1], texts[2], ", ");
  }

  lemma FormatCountsAs(merged: nat, commits: nat, repos: nat, cs: seq<Clause>, texts: seq<string>)
    requires SummaryClauses(merged, commits, repos) == cs && |cs| > 0
    requires Map(RenderClause, cs) == texts
    ensures FormatCounts(merged, commits, repos) == Prefix + Join(texts, ", ")
  {
  }

  lemma RenderedSingulars()
    ensures Map(RenderClause, [MergedClause(1), CommitsClause(1)]) == ["1 PR merged", "1 commit"]
  {
    assert NatToString(1) == "1";
    assert RenderClause(MergedClause(1)) == "1 PR merged";
    assert RenderClause(CommitsClause(1)) == "1 commit";
  }

  lemma RenderedRepos()
    ensures Map(RenderClause, [ReposClause(3)]) == ["across 3 repos"]
  {
    assert NatToString(3) == "3";
    assert RenderClause(ReposClause(3)) == "across 3 repos";
  }

  lemma RenderedPlurals()
    ensures Map(RenderClause, [MergedClause(15), CommitsClause(47), ReposClause(3)])
         == ["15 PRs merged", "47 commits", "across 3 repos"]
  {
    var cs := [MergedClause(15), CommitsClause(47), ReposClause(3)];
    var texts := ["15 PRs merged", "47 commits", "across 3 repos"];
    RenderedFifteenMerged();
    RenderedFortySevenCommits();
    RenderedRepos();
    assert Map(RenderClause, cs)[0] == texts[0];
    assert Map(RenderClause, cs)[1] == texts[1];
    assert Map(RenderClause, cs)[2] == texts[2];
  }

  lemma RenderedFifteenMerged()
    ensures RenderClause(MergedClause(15)) == "15 PRs merged"
  {
    assert NatToString(15) == NatToString(1) + [DigitChar(5)];
  }

  lemma RenderedFortySevenCommits()
    ensures RenderClause(CommitsClause(47)) == "47 commits"
  {
    assert NatToString(47) == NatToString(4) + [DigitChar(7)];
  }

  lemma JoinPair(a: string, b: string, sep: string)
    ensures Join([a, b], sep) == a + sep + b
  {
    assert [a, b][1..] == [b];
  }

  lemma JoinTriple(a: string, b: string, c: string, sep: string)
    ensures Join([a, b, c], sep) == a + sep + b + sep + c
  {
    assert [a, b, c][1..] == [b, c];
    JoinPair(b, c, sep);
  }

  const Header := "\U{1F4CA} Week's Coding Activity:"
  const Bullet := "  \U{2022} "

  /** A repository shows in the breakdown when one of its counts is
      positive. */
  predicate HasActivity(repo: RepositoryActivity) {
    MergedPrs(repo) > 0 || TotalCommits(repo) > 0 || TotalOpenIssues(repo) > 0
  }

  /** The per-repository statistics, always in the plural form, in the
      order merged, commits, open issues, each only when positive. */
  function RepoStats(repo: RepositoryActivity): (r: seq<string>)
    ensures |r| == 0 <==> !HasActivity(repo)
    ensures |r| == (if MergedPrs(repo) > 0 then 1 else 0) + (if TotalCommits(repo) > 0 then 1 else 0)
                   + (if TotalOpenIssues(repo) > 0 then 1 else 0)
    ensures MergedPrs(repo) > 0 ==> r[0] == NatToString(MergedPrs(repo)) + " PRs merged"
    ensures TotalCommits(repo) > 0 ==>
      r[if MergedPrs(repo) > 0 then 1 else 0] == NatToString(TotalCommits(repo)) + " commits"
    ensures TotalOpenIssues(repo) > 0 ==> r[|r| - 1] == NatToString(TotalOpenIssues(repo)) + " open issues"
    ensures forall i :: 0 <= i < |r| ==> '\n' !in r[i]
  {
    var d1 := NatToString(MergedPrs(repo));
    var d2 := NatToString(TotalCommits(repo));
    var d3 := NatToString(TotalOpenIssues(repo));
    DigitsAvoid(MergedPrs(repo), '\n');
    DigitsAvoid(TotalCommits(repo), '\n');
    DigitsAvoid(TotalOpenIssues(repo), '\n');
    (if MergedPrs(repo) > 0 then [d1 + " PRs merged"] else [])
    + (if TotalCommits(repo) > 0 then [d2 + " commits"] else [])
    + (if TotalOpenIssues(repo) > 0 then [d3 + " open issues"] else [])
  }

  /** A rendered number holds nothing but digits. */
  lemma DigitsAvoid(n: nat, c: char)
    requires !IsDigit(c)
    ensures c !in NatToString(n)
  {
  }

  function RepoLine(repo: RepositoryActivity): string {
    Bullet + repo.repoName + ": " + Join(RepoStats(repo), ", ")
  }

  /** Every contributor of any repository of the list. */
  function AllContributors(rs: seq<RepositoryActivity>): (r: set<string>)
    ensures forall y :: y in r <==> exists i :: 0 <= i < |rs| && y in UniqueContributors(rs[i])
  {
    if |rs| == 0 then {}
    else
      var rest := AllContributors(rs[1..]);
      Elements(UniqueContributors(rs[0])) + rest
  }

  function ContributorLine(n: nat): string {
    Bullet + NatToString(n) + " contributor" + Plural(n)
  }

  /** The lines of the breakdown: the header, one line per active
      repository in report order, then the contributor line when anyone
      contributed. */
  function DetailedLines(report: ActivityReport): (lines: seq<string>)
    ensures |lines| >= 1 && lines[0] == Header
    ensures |lines| == 1 + Count(HasActivity, report.repositories)
                     + (if |AllContributors(report.repositories)| > 0 then 1 else 0)
  {
    [Header] + Map(RepoLine, Filter(HasActivity, report.repositories))
    + ContributorLines(report.repositories)
  }

  /** The closing line counting the union of contributors, present only
      when anyone contributed. */
  function ContributorLines(rs: seq<RepositoryActivity>): (r: seq<string>)
    ensures |AllContributors(rs)| > 0 ==> r == [ContributorLine(|AllContributors(rs)|)]
    ensures |AllContributors(rs)| == 0 ==> r == []
  {
    var contributors := AllContributors(rs);
    if |contributors| > 0 then [ContributorLine(|contributors|)] else []
  }

  /** `l` is the line of a repository of `rs` with some activity. */
  predicate LineOfActiveRepo(rs: seq<RepositoryActivity>, l: string) {
    exists i :: 0 <= i < |rs| && HasActivity(rs[i]) && l == RepoLine(rs[i])
  }

  /** Between the header and the contributor line come exactly the lines of
      the active repositories: each active repository has its line, each of
      those lines belongs to an active repository, and they keep report
      order, the line of an active repository following the lines of the
      active repositories before it. The contributor line, when present, is
      last and counts the union of contributors. */
  lemma DetailedLinesContents(report: ActivityReport)
    ensures var rs := report.repositories;
      var lines := DetailedLines(report);
      var k := Count(HasActivity, rs);
      && (forall i :: 0 <= i < |rs| && HasActivity(rs[i]) ==> RepoLine(rs[i]) in lines[1..1 + k])
      && (forall j :: 1 <= j < 1 + k ==> LineOfActiveRepo(rs, lines[j]))
      && (forall i :: 0 <= i < |rs| && HasActivity(rs[i]) ==>
            1 + Count(HasActivity, rs[..i]) < 1 + k && lines[1 + Count(HasActivity, rs[..i])] == RepoLine(rs[i]))
      && (|AllContributors(rs)| > 0 ==> lines[|lines| - 1] == ContributorLine(|AllContributors(rs)|))
  {
    DetailedLinesLast(report);
    DetailedLinesCover(report);
    DetailedLinesOnlyActive(report);
    DetailedLinesInOrder(report);
  }

  lemma DetailedLinesCover(report: ActivityReport)
    ensures var rs := report.repositories;
      var lines := DetailedLines(report);
      var k := Count(HasActivity, rs);
      1 + k <= |lines| && forall i :: 0 <= i < |rs| && HasActivity(rs[i]) ==> RepoLine(rs[i]) in lines[1..1 + k]
  {
    DetailedLinesSlice(report);
    ActiveReposHaveLines(report.repositories);
  }

  lemma DetailedLinesOnlyActive(report: ActivityReport)
    ensures var rs := report.repositories;
      var lines := DetailedLines(report);
      var k := Count(HasActivity, rs);
      1 + k <= |lines| && forall j :: 1 <= j < 1 + k ==> LineOfActiveRepo(rs, lines[j])
  {
    DetailedLinesPointwise(report);
    RepoLinesAreActive(report.repositories);
  }

  lemma DetailedLinesInOrder(report: ActivityReport)
    ensures var rs := report.repositories;
      var lines := DetailedLines(report);
      var k := Count(HasActivity, rs);
      forall i :: 0 <= i < |rs| && HasActivity(rs[i]) ==>
        1 + Count(HasActivity, rs[..i]) < 1 + k <= |lines| && lines[1 + Count(HasActivity, rs[..i])] == RepoLine(rs[i])
  {
    var rs := report.repositories;
    var lines := DetailedLines(report);
    var repoLines := Map(RepoLine, Filter(HasActivity, rs));
    DetailedLinesPointwise(report);
    RepoLinesInOrder(rs);
    forall i | 0 <= i < |rs| && HasActivity(rs[i])
      ensures 1 + Count(HasActivity, rs[..i]) < 1 + |repoLines|
      ensures lines[1 + Count(HasActivity, rs[..i])] == RepoLine(rs[i])
    {
      assert lines[1 + Count(HasActivity, rs[..i])] == repoLines[Count(HasActivity, rs[..i])];
    }
  }

  /** The breakdown is the header, the repository lines, then the
      contributor lines. */
  lemma DetailedLinesShape(report: ActivityReport)
    ensures DetailedLines(report)
         == [Header] + Map(RepoLine, Filter(HasActivity, report.repositories)) + ContributorLines(report.repositories)
  {
  }

  /** The repository lines sit from index 1, one per active repository. */
  lemma DetailedLinesSlice(report: ActivityReport)
    ensures var lines := DetailedLines(report);
      var repoLines := Map(RepoLine, Filter(HasActivity, report.repositories));
      && |repoLines| == Count(HasActivity, report.repositories)
      && 1 + |repoLines| <= |lines|
      && lines[1..1 + |repoLines|] == repoLines
  {
    DetailedLinesShape(report);
    MiddleSlice(Header, Map(RepoLine, Filter(HasActivity, report.repositories)), ContributorLines(report.repositories));
  }

  /** Line `j` of the breakdown, for `1 <= j` up to the active count, is the
      line of the `j`-th active repository. */
  lemma DetailedLinesPointwise(report: ActivityReport)
    ensures var lines := DetailedLines(report);
      var repoLines := Map(RepoLine, Filter(HasActivity, report.repositories));
      && |repoLines| == Count(HasActivity, report.repositories)
      && 1 + |repoLines| <= |lines|
      && forall j :: 1 <= j < 1 + |repoLines| ==> lines[j] == repoLines[j - 1]
  {
    DetailedLinesShape(report);
    MiddleSlice(Header, Map(RepoLine, Filter(HasActivity, report.repositories)), ContributorLines(report.repositories));
  }

  /** The contributor line, when present, is last. */
  lemma DetailedLinesLast(report: ActivityReport)
    ensures var rs := report.repositories;
      var lines := DetailedLines(report);
      |AllContributors(rs)| > 0 ==> lines[|lines| - 1] == ContributorLine(|AllContributors(rs)|)
  {
    var rs := report.repositories;
    DetailedLinesShape(report);
    if |AllContributors(rs)| > 0 {
      LastOfSnoc([Header] + Map(RepoLine, Filter(HasActivity, rs)), ContributorLine(|AllContributors(rs)|));
    }
  }

  /** The middle part of `[a] + m + z` starts at index 1. */
  lemma MiddleSlice<T>(a: T, m: seq<T>, z: seq<T>)
    ensures 1 + |m| <= |[a] + m + z|
    ensures ([a] + m + z)[1..1 + |m|] == m
    ensures forall j :: 1 <= j < 1 + |m| ==> ([a] + m + z)[j] == m[j - 1]
  {
    assert ([a] + m + z)[1..1 + |m|] == m;
  }

  lemma LastOfSnoc<T>(p: seq<T>, x: T)
    ensures (p + [x])[|p + [x]| - 1] == x
  {
  }

  /** The line of an active repository comes after the lines of the active
      repositories before it, and only those. */
  lemma RepoLinesInOrder(rs: seq<RepositoryActivity>)
    ensures forall i :: 0 <= i < |rs| && HasActivity(rs[i]) ==>
      Count(HasActivity, rs[..i]) < |Map(RepoLine, Filter(HasActivity, rs))|
      && Map(RepoLine, Filter(HasActivity, rs))[Count(HasActivity, rs[..i])] == RepoLine(rs[i])
  {
    forall i | 0 <= i < |rs| && HasActivity(rs[i])
      ensures Count(HasActivity, rs[..i]) < |Map(RepoLine, Filter(HasActivity, rs))|
      ensures Map(RepoLine, Filter(HasActivity, rs))[Count(HasActivity, rs[..i])] == RepoLine(rs[i])
    {
      FilterPosition(HasActivity, rs, i);
    }
  }

  lemma ActiveReposHaveLines(rs: seq<RepositoryActivity>)
    ensures forall i :: 0 <= i < |rs| && HasActivity(rs[i]) ==> RepoLine(rs[i]) in Map(RepoLine, Filter(HasActivity, rs))
  {
    var active := Filter(HasActivity, rs);
    forall i | 0 <= i < |rs| && HasActivity(rs[i])
      ensures RepoLine(rs[i]) in Map(RepoLine, active)
    {
      var j :| 0 <= j < |active| && active[j] == rs[i];
      assert Map(RepoLine, active)[j] == RepoLine(rs[i]);
    }
  }

  lemma RepoLinesAreActive(rs: seq<RepositoryActivity>)
    ensures forall j :: 0 <= j < |Map(RepoLine, Filter(HasActivity, rs))| ==>
      LineOfActiveRepo(rs, Map(RepoLine, Filter(HasActivity, rs))[j])
  {
    var active := Filter(HasActivity, rs);
    forall j | 0 <= j < |active|
      ensures LineOfActiveRepo(rs, Map(RepoLine, active)[j])
    {
      var a := active[j];
      assert a in rs && HasActivity(a);
      var i :| 0 <= i < |rs| && rs[i] == a;
    }
  }

  /** The contributor line is singular for one person and plural otherwise. */
  lemma ContributorLineForms(n: nat)
    ensures n == 1 ==> ContributorLine(n) == Bullet + "1 contributor"
    ensures n != 1 ==> ContributorLine(n) == Bullet + NatToString(n) + " contributors"
  {
    assert NatToString(1) == "1";
  }

  /** `format_detailed_summary`: the lines joined by line breaks. */
  function FormatDetailedSummary(report: ActivityReport): (r: string)
    ensures Header <= r
  {
    var lines := DetailedLines(report);
    JoinStartsWithFirst(lines, "\n");
    Join(lines, "\n")
  }

  /** When no repository name holds a line break, splitting the breakdown
      at line breaks gives its lines back. */
  lemma DetailedLinesRoundTrip(report: ActivityReport)
    requires forall i :: 0 <= i < |report.repositories| ==> '\n' !in report.repositories[i].repoName
    ensures Split(FormatDetailedSummary(report), '\n') == DetailedLines(report)
  {
    LinesAvoidBreak(report);
    SplitJoin(DetailedLines(report), '\n');
  }

  /** No line of `ls` holds the character `c`. */
  predicate NoLineHolds(ls: seq<string>, c: char) {
    forall i :: 0 <= i < |ls| ==> c !in ls[i]
  }

  lemma LinesAvoidBreak(report: ActivityReport)
    requires forall i :: 0 <= i < |report.repositories| ==> '\n' !in report.repositories[i].repoName
    ensures NoLineHolds(DetailedLines(report), '\n')
  {
    var rs := report.repositories;
    var head := [Header] + Map(RepoLine, Filter(HasActivity, rs));
    var last := ContributorLines(rs);
    assert DetailedLines(report) == head + last;
    HeadAvoidsBreak(rs);
    LastAvoidsBreak(rs);
    ConcatAvoids(head, last, '\n');
  }

  /** The header and the repository lines hold no line break. */
  lemma HeadAvoidsBreak(rs: seq<RepositoryActivity>)
    requires forall i :: 0 <= i < |rs| ==> '\n' !in rs[i].repoName
    ensures NoLineHolds([Header] + Map(RepoLine, Filter(HasActivity, rs)), '\n')
  {
    RepoLinesAvoidBreak(rs);
    HeaderAvoidsBreak();
    ConcatAvoids([Header], Map(RepoLine, Filter(HasActivity, rs)), '\n');
  }

  /** The contributor line, when there is one, holds no line break. */
  lemma LastAvoidsBreak(rs: seq<RepositoryActivity>)
    ensures NoLineHolds(ContributorLines(rs), '\n')
  {
    ContributorLineAvoidsBreak(|AllContributors(rs)|);
  }

  lemma RepoLinesAvoidBreak(rs: seq<RepositoryActivity>)
    requires forall i :: 0 <= i < |rs| ==> '\n' !in rs[i].repoName
    ensures NoLineHolds(Map(RepoLine, Filter(HasActivity, rs)), '\n')
  {
    var active := Filter(HasActivity, rs);
    forall j | 0 <= j < |active|
      ensures '\n' !in RepoLine(active[j])
    {
      assert active[j] in rs;
      RepoLineAvoidsBreak(active[j]);
    }
  }

  lemma HeaderAvoidsBreak()
    ensures NoLineHolds([Header], '\n')
  {
    assert forall k :: 0 <= k < |Header| ==> Header[k] != '\n';
  }

  lemma ContributorLineAvoidsBreak(n: nat)
    ensures '\n' !in ContributorLine(n)
  {
    DigitsAvoid(n, '\n');
  }

  lemma ConcatAvoids(a: seq<string>, b: seq<string>, c: char)
    requires NoLineHolds(a, c) && NoLineHolds(b, c)
    ensures NoLineHolds(a + b, c)
  {
    forall i | 0 <= i < |a + b|
      ensures c !in (a + b)[i]
    {
      if i >= |a| {
        assert (a + b)[i] == b[i - |a|];
      }
    }
  }

  lemma RepoLineAvoidsBreak(repo: RepositoryActivity)
    requires '\n' !in repo.repoName
    ensures '\n' !in RepoLine(repo)
  {
    JoinAvoids(RepoStats(repo), ", ", '\n');
  }

  /** A report whose repositories have no activity shows only the header. */
  lemma QuietReportHeaderOnly(report: ActivityReport)
    requires forall i :: 0 <= i < |report.repositories| ==> !HasActivity(report.repositories[i])
    requires AllContributors(report.repositories) == {}
    ensures FormatDetailedSummary(report) == Header
  {
    FilterNone(HasActivity, report.repositories);
    assert DetailedLines(report) == [Header];
  }

  function ContributorCount(repo: RepositoryActivity): nat {
    |UniqueContributors(repo)|
  }

  /** The contributor line counts people across repositories once: the
      size of the union is at most the sum of the per-repository counts. */
  lemma {:induction false} ContributorUnionAtMostSum(rs: seq<RepositoryActivity>)
    ensures |AllContributors(rs)| <= SumOver(rs, ContributorCount)
  {
    if |rs| > 0 {
      ContributorUnionAtMostSum(rs[1..]);
      StrictlySortedCardinality(UniqueContributors(rs[0]));
      var a := Elements(UniqueContributors(rs[0]));
      var b := AllContributors(rs[1..]);
      assert |a + b| <= |a| + |b| by {
        assert |a + b| + |a * b| == |a| + |b|;
      }
    }
  }

  /** A person contributing to two repositories is counted once. */
  lemma SharedContributorCountedOnce(a: RepositoryActivity, b: RepositoryActivity)
    requires UniqueContributors(a) == ["dev1"] && UniqueContributors(b) == ["dev1"]
    ensures |AllContributors([a, b])| == 1
    ensures SumOver([a, b], ContributorCount) == 2
  {
    assert [a, b][1..] == [b];
    assert [b][1..] == [];
    assert Elements(["dev1"]) == {"dev1"};
    assert AllContributors([b]) == {"dev1"};
    assert ContributorCount(a) == 1 && ContributorCount(b) == 1;
    assert SumOver([b], ContributorCount) == 1;
  }
}

=== FILE: text.dfy ===
/** Python string primitives the report code relies on: `str.strip()`,
    `str.split(sep)`, `sep.join(xs)`, `str.replace`, `str.title()` and the
    decimal rendering of a non-negative `int` in an f-string. */
module Text {

  import opened Wrappers

  /** Python's `str.isspace()`: the ASCII whitespace and separator controls
      plus the Unicode space separators and line/paragraph separators. */
  predicate IsSpace(c: char) {
    || c == ' '
    || ('\t' <= c <= '\r')
    || ('\U{1C}' <= c <= '\U{1F}')
    || c == '\U{85}' || c == '\U{A0}' || c == '\U{1680}'
    || ('\U{2000}' <= c <= '\U{200A}')
    || c == '\U{2028}' || c == '\U{2029}' || c == '\U{202F}'
    || c == '\U{205F}' || c == '\U{3000}'
  }

  /** `s.lstrip()`: drops the leading whitespace, and only that. */
  function StripStart(s: string): (r: string)
    ensures |r| <= |s| && r == s[|s| - |r|..]
    ensures |r| > 0 ==> !IsSpace(r[0])
    ensures forall i :: 0 <= i < |s| - |r| ==> IsSpace(s[i])
  {
    if |s| > 0 && IsSpace(s[0]) then StripStart(s[1..]) else s
  }

  /** `s.rstrip()`: drops the trailing whitespace, and only that. */
  function StripEnd(s: string): (r: string)
    ensures |r| <= |s| && r == s[..|r|]
    ensures |r| > 0 ==> !IsSpace(r[|r| - 1])
    ensures forall i :: |r| <= i < |s| ==> IsSpace(s[i])
  {
    if |s| > 0 && IsSpace(s[|s| - 1]) then StripEnd(s[..|s| - 1]) else s
  }

  /** Number of leading whitespace characters of `s`. */
  function LeadingSpaces(s: string): (n: nat)
    ensures n <= |s|
  {
    |s| - |StripStart(s)|
  }

  /** `s.strip()`: the slice of `s` that starts after its leading whitespace
      and has no whitespace at either end, everything after it being
      whitespace. */
  function Strip(s: string): (r: string)
    ensures LeadingSpaces(s) + |r| <= |s|
    ensures r == s[LeadingSpaces(s)..LeadingSpaces(s) + |r|]
    ensures |r| > 0 ==> !IsSpace(r[0]) && !IsSpace(r[|r| - 1])
    ensures forall j :: 0 <= j < LeadingSpaces(s) ==> IsSpace(s[j])
    ensures forall j :: LeadingSpaces(s) + |r| <= j < |s| ==> IsSpace(s[j])
  {
    var t := StripStart(s);
    var r := StripEnd(t);
    assert r == s[|s| - |t|..|s| - |t| + |r|];
    r
  }

  /** A string with no whitespace at either end is its own strip. */
  lemma StripOfStripped(s: string)
    requires |s| > 0 ==> !IsSpace(s[0]) && !IsSpace(s[|s| - 1])
    ensures Strip(s) == s
  {
  }

  /** `strip()` is idempotent. */
  lemma StripIdempotent(s: string)
    ensures Strip(Strip(s)) == Strip(s)
  {
    StripOfStripped(Strip(s));
  }

  /** `str.strip()` applied to every element. */
  function StripAll(xs: seq<string>): (r: seq<string>)
    ensures |r| == |xs|
    ensures forall i :: 0 <= i < |xs| ==> r[i] == Strip(xs[i])
  {
    seq(|xs|, i requires 0 <= i < |xs| => Strip(xs[i]))
  }

  /** Number of occurrences of `c` in `s`. */
  function CountChar(s: string, c: char): nat {
    if |s| == 0 then 0 else (if s[0] == c then 1 else 0) + CountChar(s[1..], c)
  }

  lemma {:induction false} CountCharConcat(a: string, b: string, c: char)
    ensures CountChar(a + b, c) == CountChar(a, c) + CountChar(b, c)
  {
    if |a| == 0 {
      assert a + b == b;
    } else {
      assert (a + b)[1..] == a[1..] + b;
      CountCharConcat(a[1..], b, c);
    }
  }

  lemma {:induction false} CountCharAbsent(s: string, c: char)
    requires c !in s
    ensures CountChar(s, c) == 0
  {
    if |s| > 0 {
      assert c !in s[1..];
      CountCharAbsent(s[1..], c);
    }
  }

  /** Position of the first occurrence of `c` in `s` (`s.index(c)`). */
  function IndexOf(s: string, c: char): (i: nat)
    requires c in s
    ensures i < |s| && s[i] == c && c !in s[..i]
  {
    if s[0] == c then 0
    else
      assert c in s[1..];
      var j := IndexOf(s[1..], c);
      assert s[..j + 1] == [s[0]] + s[1..][..j];
      1 + j
  }

  /** `sep.join(xs)`. */
  function Join(xs: seq<string>, sep: string): string {
    if |xs| == 0 then ""
    else if |xs| == 1 then xs[0]
    else xs[0] + sep + Join(xs[1..], sep)
  }

  /** A non-empty joined list starts with the first element. */
  lemma JoinStartsWithFirst(xs: seq<string>, sep: string)
    requires |xs| >= 1
    ensures xs[0] <= Join(xs, sep)
  {
    if |xs| > 1 {
      assert Join(xs, sep) == xs[0] + (sep + Join(xs[1..], sep));
    }
  }

  /** A character in none of the elements nor the separator is not in the
      joined text. */
  lemma {:induction false} JoinAvoids(xs: seq<string>, sep: string, c: char)
    requires c !in sep
    requires forall i :: 0 <= i < |xs| ==> c !in xs[i]
    ensures c !in Join(xs, sep)
  {
    if |xs| > 1 {
      JoinAvoids(xs[1..], sep, c);
      assert Join(xs, sep) == xs[0] + sep + Join(xs[1..], sep);
    }
  }

  /** `s.split(sep)` for a one-character separator: the pieces between
      consecutive separators. Joining them back gives `s`, and there is one
      more piece than there are separators. */
  function Split(s: string, sep: char): (r: seq<string>)
    ensures |r| == CountChar(s, sep) + 1
    ensures forall i :: 0 <= i < |r| ==> sep !in r[i]
    ensures Join(r, [sep]) == s
    decreases |s|
  {
    if sep in s then
      var i := IndexOf(s, sep);
      var rest := Split(s[i + 1..], sep);
      assert s == s[..i] + [sep] + s[i + 1..];
      CountCharConcat(s[..i] + [sep], s[i + 1..], sep);
      CountCharConcat(s[..i], [sep], sep);
      CountCharAbsent(s[..i], sep);
      [s[..i]] + rest
    else
      CountCharAbsent(s, sep);
      [s]
  }

  /** Splitting undoes joining when no piece contains the separator. */
  lemma {:induction false} SplitJoin(xs: seq<string>, sep: char)
    requires |xs| >= 1
    requires forall i :: 0 <= i < |xs| ==> sep !in xs[i]
    ensures Split(Join(xs, [sep]), sep) == xs
  {
    if |xs| == 1 {
      assert Join(xs, [sep]) == xs[0];
    } else {
      var s := Join(xs, [sep]);
      var tail := Join(xs[1..], [sep]);
      assert s == xs[0] + [sep] + tail;
      assert s[|xs[0]|] == sep;
      var i := IndexOf(s, sep);
      assert s[..i] == xs[0];
      assert s[i + 1..] == tail;
      SplitJoin(xs[1..], sep);
      assert Split(s, sep) == [xs[0]] + xs[1..];
    }
  }

  /** The first `c` of `p + t` is the one that starts `t` when `p` has none. */
  lemma IndexOfAfter(p: string, t: string, c: char)
    requires c !in p && |t| > 0 && t[0] == c
    ensures c in p + t && IndexOf(p + t, c) == |p|
  {
    var s := p + t;
    assert s[|p|] == c;
    assert s[..|p|] == p;
  }

  /** Splitting at a first separator gives the text before it, then the
      pieces of the text after it. */
  lemma SplitFirst(a: string, b: string, c: char)
    requires c !in a
    ensures Split(a + [c] + b, c) == [a] + Split(b, c)
  {
    var s := a + [c] + b;
    assert s == a + ([c] + b);
    IndexOfAfter(a, [c] + b, c);
    assert s[..|a|] == a && s[|a| + 1..] == b;
  }

  /** A leading whitespace character does not change the result of
      `strip()`. */
  lemma StripDropSpace(s: string)
    requires |s| > 0 && IsSpace(s[0])
    ensures Strip(s) == Strip(s[1..])
  {
  }

  /** Leading whitespace does not change the result of `strip()`. */
  lemma {:induction false} StripSpacesPrefix(pre: string, s: string)
    requires forall i :: 0 <= i < |pre| ==> IsSpace(pre[i])
    ensures Strip(pre + s) == Strip(s)
  {
    if |pre| > 0 {
      StripSpacesPrefix(pre[1..], s);
      assert (pre + s)[1..] == pre[1..] + s;
      StripDropSpace(pre + s);
    } else {
      assert pre + s == s;
    }
  }

  /** The pieces of a `", "`-joined list after a comma-free prefix, split
      on `','`: the prefix glued to the first element, then every other
      element behind the space that followed its comma. */
  predicate CommaSpacePieces(pre: string, xs: seq<string>, ps: seq<string>)
    requires |xs| >= 1
  {
    && |ps| == |xs|
    && ps[0] == pre + xs[0]
    && forall i :: 1 <= i < |xs| ==> ps[i] == " " + xs[i]
  }

  lemma {:induction false} SplitCommaSpaceJoin(pre: string, xs: seq<string>)
    requires |xs| >= 1 && ',' !in pre
    requires forall i :: 0 <= i < |xs| ==> ',' !in xs[i]
    ensures CommaSpacePieces(pre, xs, Split(pre + Join(xs, ", "), ','))
    decreases |xs|
  {
    var a := pre + xs[0];
    if |xs| == 1 {
      assert pre + Join(xs, ", ") == a;
      assert Split(a, ',') == [a];
    } else {
      var b := " " + Join(xs[1..], ", ");
      CommaSpaceRegroup(pre, xs, Join(xs[1..], ", "));
      SplitFirst(a, b, ',');
      TailNoComma(xs);
      SplitCommaSpaceJoin(" ", xs[1..]);
      ConsPieces(pre, xs, Split(b, ','));
    }
  }

  lemma TailNoComma(xs: seq<string>)
    requires |xs| >= 1
    requires forall i :: 0 <= i < |xs| ==> ',' !in xs[i]
    ensures forall i :: 0 <= i < |xs[1..]| ==> ',' !in xs[1..][i]
  {
    forall i | 0 <= i < |xs[1..]| ensures ',' !in xs[1..][i] {
      assert xs[1..][i] == xs[i + 1];
    }
  }

  /** Putting the first piece in front of the pieces of the rest. */
  lemma ConsPieces(pre: string, xs: seq<string>, tail: seq<string>)
    requires |xs| >= 2 && CommaSpacePieces(" ", xs[1..], tail)
    ensures CommaSpacePieces(pre, xs, [pre + xs[0]] + tail)
  {
    forall i | 1 <= i < |xs| ensures ([pre + xs[0]] + tail)[i] == " " + xs[i] {
      assert xs[1..][i - 1] == xs[i];
    }
  }

  lemma CommaSpaceRegroup(pre: string, xs: seq<string>, rest: string)
    requires |xs| >= 2 && rest == Join(xs[1..], ", ")
    ensures pre + Join(xs, ", ") == (pre + xs[0]) + [','] + (" " + rest)
  {
    assert Join(xs, ", ") == xs[0] + ", " + rest;
  }

  /** Stripping the pieces of a `", "`-joined list of stripped elements
      gives the elements. */
  lemma StripPieces(xs: seq<string>, ps: seq<string>)
    requires |xs| >= 1 && CommaSpacePieces("", xs, ps)
    requires forall i :: 0 <= i < |xs| ==> Strip(xs[i]) == xs[i]
    ensures StripAll(ps) == xs
  {
    forall i | 0 <= i < |xs| ensures StripAll(ps)[i] == xs[i] {
      if i > 0 {
        StripSpaceThen(xs[i]);
      }
    }
  }

  /** One space before a stripped text is stripped off again. */
  lemma StripSpaceThen(x: string)
    requires Strip(x) == x
    ensures Strip(" " + x) == x
  {
    assert IsSpace(" "[0]);
    StripSpacesPrefix(" ", x);
  }

  /** Splitting a `", "`-joined list on `','` and stripping every piece gives
      the list back when its elements are stripped and comma-free. */
  lemma SplitStripCommaSpaceJoin(xs: seq<string>)
    requires |xs| >= 1
    requires forall i :: 0 <= i < |xs| ==> ',' !in xs[i] && Strip(xs[i]) == xs[i]
    ensures StripAll(Split(Join(xs, ", "), ',')) == xs
  {
    SplitCommaSpaceJoin("", xs);
    assert "" + Join(xs, ", ") == Join(xs, ", ");
    StripPieces(xs, Split(Join(xs, ", "), ','));
  }

  /** `s.replace(a, b)` for single characters. */
  function ReplaceChar(s: string, a: char, b: char): (r: string)
    ensures |r| == |s|
    ensures forall i :: 0 <= i < |s| ==> r[i] == (if s[i] == a then b else s[i])
  {
    seq(|s|, i requires 0 <= i < |s| => if s[i] == a then b else s[i])
  }

  predicate IsUpper(c: char) { 'A' <= c <= 'Z' }
  predicate IsLower(c: char) { 'a' <= c <= 'z' }
  predicate IsCased(c: char) { IsUpper(c) || IsLower(c) }

  function ToUpper(c: char): char {
    if IsLower(c) then (c as int - 32) as char else c
  }

  function ToLower(c: char): char {
    if IsUpper(c) then (c as int + 32) as char else c
  }

  /** `str.title()` over ASCII: a letter is upper-cased when the character
      before it is not a letter, and lower-cased otherwise. */
  function Title(s: string): (r: string)
    ensures |r| == |s|
  {
    seq(|s|, i requires 0 <= i < |s| =>
      if i > 0 && IsCased(s[i - 1]) then ToLower(s[i]) else ToUpper(s[i]))
  }

  /** The decimal digit for `d`. */
  function DigitChar(d: nat): (c: char)
    requires d < 10
  {
    "0123456789"[d]
  }

  predicate IsDigit(c: char) { '0' <= c <= '9' }

  function DigitValue(c: char): nat
    requires IsDigit(c)
  {
    c as int - '0' as int
  }

  /** The decimal rendering of `n` (Python `f"{n}"` for `n >= 0`): digits
      only, and no leading zero unless `n` is zero. */
  function NatToString(n: nat): (r: string)
    ensures |r| >= 1
    ensures forall i :: 0 <= i < |r| ==> IsDigit(r[i])
    ensures r[0] == '0' ==> n == 0
  {
    if n < 10 then [DigitChar(n)] else NatToString(n / 10) + [DigitChar(n % 10)]
  }

  /** Reads a string of decimal digits back as a number. */
  function ParseDigits(s: string): nat
    requires forall i :: 0 <= i < |s| ==> IsDigit(s[i])
  {
    if |s| == 0 then 0 else 10 * ParseDigits(s[..|s| - 1]) + DigitValue(s[|s| - 1])
  }

  /** Reading a rendered number gives the number back. */
  lemma {:induction false} ParseNatToString(n: nat)
    ensures ParseDigits(NatToString(n)) == n
  {
    var s := NatToString(n);
    if n >= 10 {
      ParseNatToString(n / 10);
      assert s[..|s| - 1] == NatToString(n / 10);
    }
  }

  /** `s` parsed as an unsigned decimal number, when it is one. */
  function ParseNat(s: string): (r: Option<nat>)
    ensures r.Some? <==> |s| > 0 && forall i :: 0 <= i < |s| ==> IsDigit(s[i])
  {
    if |s| > 0 && forall i :: 0 <= i < |s| ==> IsDigit(s[i]) then Some(ParseDigits(s)) else None
  }

  lemma ParseNatRoundTrip(n: nat)
    ensures ParseNat(NatToString(n)) == Some(n)
  {
    ParseNatToString(n);
  }

  /** The last piece of a joined list follows the last separator. */
  lemma {:induction false} JoinLast(xs: seq<string>, sep: string)
    requires |xs| >= 2
    ensures Join(xs, sep) == Join(xs[..|xs| - 1], sep) + sep + xs[|xs| - 1]
  {
    if |xs| > 2 {
      JoinLast(xs[1..], sep);
      assert xs[1..][..|xs| - 2] == xs[1..|xs| - 1];
      assert xs[..|xs| - 1][1..] == xs[1..|xs| - 1];
    } else {
      assert xs[..1] == [xs[0]];
    }
  }

  /** A comma-free piece that ends a text ending in a comma is empty. */
  lemma EmptyLastPiece(head: string, last: string)
    requires ',' !in last
    requires |head + last| > 0 && (head + last)[|head + last| - 1] == ','
    ensures last == ""
  {
  }
}

=== FILE: wrappers.dfy ===
/** Python's `None`-able values become `Option`, and raised exceptions
    become the `Failure` arm of a `Result`. */
module Wrappers {

  /** A value that may be absent (Python `Optional[...]`). */
  datatype Option<+T> = None | Some(value: T) {

    /** The wrapped value, or `default` when absent. */
    function GetOr(default: T): T {
      match this
      case Some(v) => v
      case None => default
    }
  }

  /** Either a computed value or the error that would have been raised. */
  datatype Result<+R, +E> = Success(value: R) | Failure(error: E)
}
